=== FILE: README.md ===
# Portfolio site script, modelled in Dafny

This project models the logic in `script.js` of a personal portfolio site. It is written as pure Dafny functions over immutable data, and it proves what each piece of logic promises.

The model covers:

- **Project catalog.** Covered pieces:
  - `escapeHtml`;
  - the tag vocabulary, `uniqueTags`;
  - the visible project list, `filteredProjects`. This is a tag filter, then a case-insensitive substring search, then a stable sort: featured projects first, then newest date.
- **Career rail.** Covered pieces:
  - which row is nearest the viewport centre, with ties going to the earliest row;
  - the clamped progress dot;
  - `setActive`, with a pulse only when the highlighted row changes.
- **Theme state machine.** Covered pieces: `setTheme`, `initTheme` and the theme button's toggle.
- **Smaller pieces.** Covered pieces:
  - the two-digit card number;
  - the header's work/private email switch;
  - the precedence of the tech-stack icon sources.

Modules, one per file:

| module | file | content |
|---|---|---|
| `Wrappers` | `wrappers.dfy` | `Option`. `GetOr` is the source's `x \|\| default` for a field that may be missing. |
| `Text` | `text.dfy` | The string operations the site relies on (see below). |
| `Html` | `html.dfy` | `escapeHtml` as the source's chain of five `replaceAll` calls. Also a decoder, proved to invert it. |
| `Projects` | `project.dfy` | The project record, with its optional fields. |
| `ProjectOrder` | `ordering.dfy` | The sort comparator and a stable insertion sort. Also the proof that any stable sort gives the same list. |
| `Catalog` | `catalog.dfy` | `uniqueTags`, the filters and `filteredProjects`. |
| `CatalogScenarios` | `scenarios.dfy` | Worked examples: the featured-then-newest order, and a case-insensitive search. |
| `Career` | `career.dfy` | The nearest-row loop and the dot arithmetic. Measurements are exact reals. |
| `Rail` | `rail.dfy` | The highlighted-row state, `setActive`, and one run of `updateFromScroll`. |
| `Theme` | `theme.dfy` | `data-theme`, the stored `theme` value, and the button glyph. |
| `Contact` | `contact.dfy` | The header email link and its toggle. |
| `Icons` | `icons.dfy` | The order of the icon sources, and the catch-all placeholder. |
| `CardNumber` | `cardnumber.dfy` | `String(index + 1).padStart(2, "0")` |

`Text` covers:

- `toLowerCase`;
- `trim`;
- `join`;
- `includes`;
- `localeCompare`, taken as lexicographic order of characters.

## Model

| member | source | states |
|---|---|---|
| Html.EscapeHtml | script.js:136-143 | A missing input gives the empty string. The output has no `<`, `>`, `"` or `'`, and every `&` in it begins one of the five entities. Decoding the output gives back the input. |
| Html.ReplaceAll | script.js:137-142 | Replacing every `c` with a text that does not contain `c` leaves no `c`. Every character of the result comes from the input or from the replacement. |
| Html.ReplaceAllAppend | script.js:137-142 | `replaceAll` distributes over concatenation. |
| Html.ChainIsEachChar | script.js:136-143 | The chain of five `replaceAll` calls, `&` first, equals escaping each character on its own. |
| Html.ChainOfChar | script.js:137-142 | On a single character, the chain gives that character's entity, or the character itself. |
| Html.ReplaceChain | script.js:137-142 | After the five replacements no `<`, `>`, `"` or `'` is left. Every character of the output comes from the input or from the five entity texts. |
| Html.LaterStagesKeep | script.js:138-142 | The entity text a stage writes is left unchanged by every later stage. |
| Html.EscapeEachSafe | script.js:136-143 | Escaped text has no markup characters, and each `&` in it starts an entity. |
| Html.UnescapeEscapeEach | script.js:136-143 | The decoder inverts character-wise escaping. |
| Text.Lower | script.js:164-169 | `toLowerCase`: same length, each character lowered. |
| Text.LowerIdempotent | script.js:164-169 | Lowering twice is lowering once. |
| Text.Trim | script.js:164 | `trim` returns a slice `s[a..b]` of the query, with only white space before `a` and after `b`. The result is empty exactly when the query is all white space. Otherwise it starts and ends with a non-space character. |
| Text.TrimLower | script.js:164 | Trimming commutes with lower-casing, so the order of `trim` and `toLowerCase` does not matter. |
| Text.TrimStart | script.js:164 | A suffix of the input, with only white space removed, that starts with a non-space character. |
| Text.TrimEnd | script.js:164 | A prefix of the input, with only white space removed, that ends with a non-space character. |
| Text.Join | script.js:167-169 | `join(" ")` of no items is empty, and of one item is that item. The result begins with the first item and contains every item. With two or more items it also contains the separator. |
| Text.JoinAppend | script.js:167-169 | Joining two non-empty lists is joining each, with one separator between them. So the items keep their order, with exactly one separator between neighbours. |
| Text.JoinTwo | script.js:167-169 | Two items join as the first, the separator, then the second. |
| Text.JoinLength | script.js:167-169 | A join is as long as its items plus one separator per neighbouring pair. |
| Text.ContainsIffOccurs | script.js:170 | `includes(q)` holds exactly when `q` occurs at some offset. |
| Text.Contains | script.js:170 | The empty query is found in every text. A query that is found is no longer than the text. |
| Text.ContainsWithin | script.js:167-169 | Text found in a part is found in any text that embeds that part. |
| Text.ContainsLower | script.js:167-170 | A piece found in a text is still found after both are lower-cased. |
| Text.ContainsAcrossSpace | script.js:167-170 | A query without a space is found in `a + " " + b` exactly when it is found in `a` or in `b`. |
| Text.ContainsJoin | script.js:167-170 | A non-empty query without a space is found in `join(" ")` exactly when it is found in one of the items. |
| Text.Compare | script.js:177 | `localeCompare` is zero exactly on equal strings. It is negative or positive exactly when the first string sorts before or after the second. |
| Text.LessTransitive | script.js:177 | The string order is transitive. |
| Text.LessTotal | script.js:177 | Any two strings are equal or ordered one way or the other. |
| Text.LessAsymmetric | script.js:177 | Never both `a < b` and `b < a`. |
| Catalog.TagUnion | script.js:147 | Contains exactly the tags of some record, with missing tags read as `[]`. |
| Catalog.InsertTag | script.js:147-148 | Adding a tag keeps the list strictly sorted. The set of tags gains exactly that tag. |
| Catalog.CollectTags | script.js:147-148 | The tags collected over all records are strictly sorted, and are exactly the tag union. |
| Catalog.UniqueTags | script.js:145-149 | `"All"` comes first. The rest is strictly sorted, has no duplicates, and is exactly the set of tags used by the records. |
| Catalog.SortedListingUnique | script.js:148 | Two strictly sorted lists with the same elements are equal, so the tag bar is determined by the tag set. |
| Catalog.TagStatisticCountsTags | script.js:327 | The "tags" statistic, `max(0, length - 1)`, is the number of distinct tags. |
| Catalog.Filter | script.js:161 | `Array.filter` keeps exactly the items that pass. Each kept item keeps its multiplicity from the input. The result is a subsequence of the input, in input order, and is never longer. |
| Catalog.Haystack | script.js:167-169 | The search text contains the name, the description, every tag and every highlight. |
| Catalog.HaystackMatchesAField | script.js:167-170 | A query without a space is found in the search text exactly when it is found in the name, the description, a tag or a highlight. The separators add no match of their own. |
| Catalog.FilterCompose | script.js:161-172 | Filtering by one test and then another equals filtering once by both. |
| Catalog.NormalizeQuery | script.js:164 | The normalised query is empty exactly when the raw query is all white space. |
| Catalog.SelectProjects | script.js:158-172 | The source's two filter steps, each guarded, select exactly the records that pass the combined test. |
| Catalog.SelectionAgrees | script.js:160-172 | Each of the four guard combinations gives the same list as the combined filter. |
| Catalog.FilteredProjects | script.js:157-181 | A record is shown exactly when it carries the active tag (or the tag is `All`) and its text contains the query. The visible list is a permutation of those records, is in featured-then-newest order, and keeps the input order among records with equal keys. |
| Catalog.VisibleListIsTheStableOrder | script.js:174-178 | Any ordered, stable arrangement of the qualifying records is the visible list itself. |
| Catalog.SearchIgnoresQueryCase | script.js:164-170 | For every list, tag and query, lower-casing the query first leaves the visible list unchanged. |
| Catalog.NoFilterShowsAll | script.js:158-178 | With tag `All` and a blank query, every record is shown, in sorted order. |
| Catalog.UnknownTagShowsNothing | script.js:160-162 | A tag no record carries shows nothing. |
| Catalog.EmptyStateIffNothingQualifies | script.js:321 | The empty-state message shows exactly when no record qualifies. |
| ProjectOrder.CompareProjects | script.js:174-178 | The result is -1, 0 or 1. When exactly one record is featured, it is negative exactly when `a` is the featured one. Otherwise it is negative exactly when `b`'s date sorts before `a`'s, and zero exactly on equal dates. |
| ProjectOrder.CompareZeroIffSameKey | script.js:174-178 | The comparator is zero exactly when featured flag and date agree. |
| ProjectOrder.CompareAntisymmetric | script.js:174-178 | Swapping the arguments negates the comparator. |
| ProjectOrder.PrecedesTransitive | script.js:174-178 | The comparator's order is transitive, so the sort is well defined. |
| ProjectOrder.PrecedesTotal | script.js:174-178 | Any two records are ordered one way or the other. |
| ProjectOrder.OrderedMeans | script.js:174-178 | Sorted means featured records come before unfeatured ones, and dates never increase within each group. |
| ProjectOrder.Insert | script.js:174-178 | Inserting into a sorted list keeps it sorted, adds exactly that record, and puts it first among records with its key. |
| ProjectOrder.SortProjects | script.js:174-178 | The stable sort yields an ordered permutation. Records with equal keys keep their input order. |
| ProjectOrder.StableOrderUnique | script.js:174-178 | Two ordered lists with the same per-key subsequences are equal, so every stable sort agrees. |
| CatalogScenarios.FeaturedThenNewest | script.js:174-178 | Records dated 2024-01-01 and 2023-06-01, and a featured one dated 2024-06-01, are shown as featured, then 2024-01-01, then 2023-06-01. |
| CatalogScenarios.SearchScenario | script.js:164-172 | Searching "react" keeps the record tagged "React" and drops one tagged "Python". |
| CatalogScenarios.UpperCaseQueryFindsReact | script.js:164-172 | The query "REACT" keeps the record tagged "React" and drops the one tagged "Python", as the lower-case query does. |
| CatalogScenarios.MissingFirstChar | script.js:170 | A query whose first character is absent from the text never matches. |
| CardNumber.NatToString | script.js:217 | `String(n)` is all digits, starts with `0` only for zero, and is a single digit exactly when `n < 10`. |
| CardNumber.ValueOfNatToString | script.js:217 | Reading back `String(n)` gives `n`. |
| CardNumber.PadStart | script.js:217 | `padStart` reaches the width, ends with the input, and is filled on the left. |
| CardNumber.CardNumber | script.js:217 | Card `index` shows at least two digits that denote `index + 1`. There is a leading zero exactly for cards 1 to 9. |
| CardNumber.CardNumberInjective | script.js:217 | Different positions show different numbers. |
| Career.ScanFindsNearest | script.js:566-573 | The loop invariant carries through to the end: the chosen row is a nearest row, and strictly nearer than every earlier row. |
| Career.Scan | script.js:566-573 | The loop returns its starting best index or a row index at or after its start. Started from `Infinity` on at least one remaining row, it always returns a row index. |
| Career.NearestIndex | script.js:563-573 | Over at least one row, the highlighted row is at least as near the centre as every row, and strictly nearer than every row before it. With no rows it is 0. |
| Career.NearestIsUnique | script.js:569 | That property picks out one row, since ties go to the lowest index. |
| Career.CentreOnMidpointSelectsRow | script.js:563-573 | A centre exactly on a row's midpoint selects that row, unless an earlier row has the same midpoint. |
| Career.HalfwayTieGoesToLower | script.js:569 | A centre exactly between two rows never selects the later one. |
| Career.Span | script.js:550 | The divisor `max(1, last - first)` is at least 1, never zero. |
| Career.Progress | script.js:548-551 | Progress lies in [0, 1]. It is 0 at or above the first midpoint. It is 1 at or below the last midpoint when the rows span at least 1px. |
| Career.ProgressMonotone | script.js:550-551 | Progress never decreases as the centre moves down. |
| Career.ProgressInterpolates | script.js:547-551 | Between the first midpoint and one span below it, progress is exactly `(centre - first) / span`. |
| Career.ProgressLinear | script.js:547-551 | In that range, moving the centre by `d` moves progress by `d / span`. |
| Career.DotHeight | script.js:554 | A zero `offsetHeight` counts as 10, and any other value as itself. So the height is always positive. |
| Career.MaxY | script.js:556 | The lowest dot position is never above the highest one. |
| Career.DotY | script.js:555-557 | The dot lies between `minY` and `maxY`. Progress 0 puts it at `minY`, progress 1 at `maxY`. |
| Career.DotYLinear | script.js:553-557 | A step in progress moves the dot by that step times the track length `maxY - minY`. |
| Career.DotOffset | script.js:547-560 | The dot offset written to the dot and the fill is clamped to the track. It is at the top before the first row, and at the bottom past the last. |
| Career.DotOffsetInterpolates | script.js:547-560 | While the centre is within one span below the first midpoint, the dot sits at `minY` plus the same fraction of the track. |
| Career.DotOffsetMonotone | script.js:547-560 | Scrolling down never moves the dot up. |
| Rail.Initial | script.js:464-498 | Rows as rendered: none active, all dim, with `currentIdx` 0. |
| Rail.Toggle | script.js:513-514 | The two `classList.toggle` calls set `active` to `on` and `dim` to its negation, whatever the element had before. So an element is never both active and dim, and never neither. |
| Rail.SetActive | script.js:508-530 | Records the index. The chosen row's three elements are lit and every other row is dimmed. Pulses exactly when asked. |
| Rail.ShowsExactlyOne | script.js:508-527 | After `setActive(k)`, the active rows are exactly `{k}` when `k` names a row. |
| Rail.SetActiveIdempotent | script.js:508-527 | Setting the same row again changes nothing. |
| Rail.Midpoints | script.js:542-545 | Each year row's midpoint in the line wrapper's coordinates. For a row of non-negative height, it lies between the row's top and bottom edges. |
| Rail.UpdateFromScroll | script.js:532-581 | Nothing is drawn exactly when there is no line wrapper or no year row. Otherwise: the nearest row is lit; the dot pulses exactly when that row changed; the dot and the fill both get the progress offset of the midpoints, clamped to the track. |
| Rail.RepeatedUpdateIsQuiet | script.js:575-576 | A second update over the same layout keeps the rail and does not pulse. |
| Rail.StartLightsFirstRow | script.js:592 | The first step of the start frame, `setActive(0, true)`, lights the first row with a pulse. |
| Rail.Start | script.js:591-594 | The whole start frame. With nothing to measure, row 0 stays lit after one pulse. Otherwise the nearest row is lit and is the only active row, and the dot pulses a second time exactly when that row is not row 0. |
| Rail.DrawnFrameLightsOneRow | script.js:575-576 | After any drawn frame, exactly one row is active. |
| Theme.GlyphTellsLightFromDark | script.js:8 | Two themes get the same glyph exactly when both are `"light"` or neither is. |
| Theme.SetTheme | script.js:4-9 | The attribute, the stored value and the glyph all show `next`. A missing button stays missing. |
| Theme.InitTheme | script.js:11-18 | A saved non-empty value is applied as given. Otherwise light is applied exactly when the colour scheme prefers light. |
| Theme.Current | script.js:701 | A missing or empty attribute reads as `"dark"`, and any other value as itself. The result is never empty. |
| Theme.Toggle | script.js:700-703 | From dark the page becomes light, and from anything else it becomes dark. The result is always light or dark. |
| Theme.MissingThemeTogglesToLight | script.js:701-702 | A page without the attribute reads as dark, so a click shows light. |
| Theme.ToggleTwiceRestores | script.js:700-703 | From light or dark, two clicks return to the same theme. |
| Theme.ToggleChangesTheme | script.js:700-703 | Every click changes the theme shown. |
| Theme.UnknownThemeSurvivesInit | script.js:11-13 | An unknown saved theme is applied as given by `initTheme`, whatever the preference, so the page reads as neither light nor dark. |
| Theme.UnknownThemeTogglesToDark | script.js:700-703 | After `initTheme` has applied an unknown saved theme, the first click of the theme button makes it dark. |
| Theme.ChoiceSurvivesReload | script.js:4-13 | A theme chosen with the button is the theme after a reload, whatever the preference. |
| Contact.Address | script.js:619-620 | The address is the work address exactly in work mode, and the private address exactly in private mode. So the address shown identifies the mode. |
| Contact.Label | script.js:642 | The toggle reads "Work" exactly in work mode and "Private" exactly in private mode. |
| Contact.Flip | script.js:650 | A click switches to the other mode. |
| Contact.FlipTwice | script.js:650 | Switching twice gives back the starting mode. |
| Contact.SetTopEmail | script.js:632-644 | The link shows the mode's address with a `mailto:` href, and the toggle names the mode. Missing elements stay missing. |
| Contact.Start | script.js:646 | The header starts in work mode. |
| Contact.Click | script.js:649-661 | The mode flips. The address copied is the one now displayed, and the link, when present, shows it with a `mailto:` href. The link stays present exactly when it was. A check mark and a scheduled revert appear exactly when the copy succeeded. |
| Contact.Revert | script.js:657 | The timer shows the mode that is current when it fires, without the check mark. The link and the toggle stay present exactly when they were. |
| Contact.TwoClicksRestore | script.js:649-661 | Two clicks, each with its revert, show the starting mode with the same elements present. A header that showed its mode is restored exactly. |
| Contact.QuickDoubleClick | script.js:649-661 | A second click before the revert copies the original address. The pending revert then shows the current mode. |
| Contact.AddressDeterminesMode | script.js:619-620 | The two addresses differ, so the address shown identifies the mode. |
| Icons.LocalIcon | script.js:853-876 | `openai` gets the built-in badge, a slug with a Devicon class gets that class, and everything else gets the placeholder. The local step never yields SVG text. It gives the placeholder exactly when the slug has neither badge nor class. |
| Icons.IconMarkup | script.js:842-877 | A usable first-CDN icon is used as is. The result fails exactly when the first fetch rejects, or the first gives nothing and the mirror rejects. |
| Icons.TileIcon | script.js:908-920 | Every tile gets markup: `getIconMarkup`'s, or the placeholder when it rejected. SVG text comes only from a usable response. That is the first CDN's, or the mirror's when the first answered without one. Anything else is the local icon or the placeholder. |
| Icons.IconMarkupIsFirstOf | script.js:842-877 | `getIconMarkup` is the first source that gives markup, in the order first CDN, mirror, local icon. A rejection stops the search. |
| Icons.MirrorIrrelevantAfterPrimary | script.js:844-845 | Once the first CDN gives an icon, the mirror's answer does not matter. |

## Left out

- Rendering is not modelled: `renderTags`, `renderWork`'s DOM writes, `makeProjectCard` apart from its number, `renderFeatured`, `renderStack`, `renderCareer`'s markup and `tileHTML`. Only the values they display are modelled.
- `formatDate` and the `Date`-based year in the footer are not modelled. They depend on the host's locale and clock.
- The fetch of `projects.json` and its error path are not modelled. The model takes the records as a parameter.
- The clipboard, timers, `requestAnimationFrame` throttling and the dot's transient `scrolling` and `pulse` classes are not modelled. Their outcomes are parameters or flags: the clipboard result, `revertScheduled`, `pulse`.
- `avatar.js` is not part of this model. It holds a 3D scene and its per-frame animation loop, with nothing pure to verify.
- The card hover-tilt arithmetic is not modelled. It is floating-point styling with no promise to check.
- The background effect, the story section, the scroll-restoration reset, the left-column click that scrolls to a row, the social links and the contact cards are not modelled. They only set fixed values or call third-party libraries.
- Text.Compare: `localeCompare` is modelled as lexicographic order of characters. A Dafny `char` is a Unicode scalar value, so this is code point order. It differs from UTF-16 code unit order for characters above U+FFFF. The browser's locale collation is not modelled.
- Text.Lower: `toLowerCase` is modelled for ASCII letters only.
- Catalog.Haystack: a record's `name` and `description` are taken as present strings. A missing one, which JavaScript would interpolate as `"undefined"`, is not modelled.
- Career.NearestIndex: a row's `data-index` is taken to be its position, as `renderCareer` writes it. Layout measurements are exact reals rather than floating point.
- Icons.LocalIcon: the Devicon lookup sees only the table's three own keys. Inherited object properties that a slug such as `constructor` would reach are not modelled.
- Icons.TileIcon: the placeholder from the catch block and the one from `getIconMarkup` differ only in white space. Both are modelled as the same `Placeholder(slug)`.
- Theme.InitTheme: a `localStorage` that throws, as when storage is disabled, is not modelled. In the source it makes `initTheme` throw at script.js:12, which rejects `init()` (script.js:610, 751).
- Theme.InitTheme: a missing `matchMedia` is passed as `prefersLight = false`, which is how the source's `&&` treats it.
- Theme.SetTheme: themes are strings rather than a two-valued type. `initTheme` applies any non-empty saved string unchanged, and the toggle turns every non-empty value other than `"dark"` into `"dark"`, and a missing or empty attribute into `"light"`. So two clicks restore the theme only from light or dark; `Theme.UnknownThemeTogglesToDark` states the other case.
- Contact.Click: the handler is modelled as one atomic step. In the source it awaits the clipboard at script.js:654, and a second click can run during that wait. The check mark written at script.js:655-656 then names the later mode. Interleaved clicks are not modelled.

=== FILE: cardnumber.dfy ===
/** The two-digit number on a project card, `String(index + 1)` padded on
    the left with zeros to width two. */
module CardNumber {

  predicate IsDigit(c: char) {
    '0' <= c <= '9'
  }

  predicate AllDigits(s: string) {
    forall i :: 0 <= i < |s| ==> IsDigit(s[i])
  }

  function DigitChar(d: nat): (c: char)
    requires d < 10
    ensures IsDigit(c) && c as int - '0' as int == d
  {
    ('0' as int + d) as char
  }

  function DigitValue(c: char): (d: nat)
    requires IsDigit(c)
    ensures d < 10
  {
    c as int - '0' as int
  }

  /** `String(n)` for a non-negative integer: decimal, no leading zero. */
  function NatToString(n: nat): (s: string)
    ensures |s| >= 1 && AllDigits(s)
    ensures s[0] == '0' <==> n == 0
    ensures n < 10 <==> |s| == 1
    decreases n
  {
    if n < 10 then [DigitChar(n)] else NatToString(n / 10) + [DigitChar(n % 10)]
  }

  /** The number a string of decimal digits denotes. */
  function Value(s: string): nat
    requires AllDigits(s)
  {
    if s == [] then 0 else Value(s[..|s| - 1]) * 10 + DigitValue(s[|s| - 1])
  }

  lemma {:induction false} ValueOfNatToString(n: nat)
    ensures Value(NatToString(n)) == n
    decreases n
  {
    if n >= 10 {
      var s := NatToString(n);
      assert s[..|s| - 1] == NatToString(n / 10);
      ValueOfNatToString(n / 10);
    }
  }

  /** A leading zero does not change the value. */
  lemma {:induction false} LeadingZero(s: string)
    requires AllDigits(s)
    ensures AllDigits("0" + s) && Value("0" + s) == Value(s)
    decreases |s|
  {
    var z := "0" + s;
    assert AllDigits(z) by {
      assert forall i :: 0 < i < |z| ==> z[i] == s[i - 1];
    }
    if s != [] {
      assert z[..|z| - 1] == "0" + s[..|s| - 1];
      LeadingZero(s[..|s| - 1]);
    }
  }

  /** `s.padStart(width, [fill])`: `fill` prepended until `width` is reached. */
  function PadStart(s: string, width: nat, fill: char): (r: string)
    ensures |r| == if |s| >= width then |s| else width
    ensures r[|r| - |s|..] == s
    ensures forall i :: 0 <= i < |r| - |s| ==> r[i] == fill
    decreases width - |s|
  {
    if |s| >= width then s else PadStart([fill] + s, width, fill)
  }

  /** The `pNum` text of the card at position `index` of the visible list. */
  function CardNumber(index: nat): (r: string)
    ensures |r| >= 2 && AllDigits(r)
    ensures Value(r) == index + 1
    ensures index + 1 < 10 <==> r[0] == '0'
    ensures index + 1 < 10 ==> |r| == 2
    ensures index + 1 >= 10 ==> r == NatToString(index + 1)
  {
    var s := NatToString(index + 1);
    ValueOfNatToString(index + 1);
    PadToTwo(s);
    PadStart(s, 2, '0')
  }

  /** Padding to width two adds one zero to a single digit and nothing to
      a longer number. */
  lemma PadToTwo(s: string)
    requires |s| >= 1 && AllDigits(s)
    ensures PadStart(s, 2, '0') == if |s| == 1 then "0" + s else s
    ensures AllDigits(PadStart(s, 2, '0')) && Value(PadStart(s, 2, '0')) == Value(s)
  {
    if |s| == 1 {
      LeadingZero(s);
      assert PadStart(s, 2, '0') == PadStart("0" + s, 2, '0');
    }
  }

  /** Different positions never show the same number. */
  lemma CardNumberInjective(i: nat, j: nat)
    ensures CardNumber(i) == CardNumber(j) <==> i == j
  {
  }
}

=== FILE: career.dfy ===
/** The arithmetic of the career rail's `updateFromScroll`: which row is
    nearest the viewport centre, and where the progress dot sits. Layout
    measurements are inputs, as exact reals. */
module Career {

  function Abs(x: real): real { if x < 0.0 then -x else x }

  /** `Math.max` */
  function Max(a: real, b: real): (r: real)
    ensures r >= a && r >= b && (r == a || r == b)
  {
    if a >= b then a else b
  }

  /** `Math.min` */
  function Min(a: real, b: real): (r: real)
    ensures r <= a && r <= b && (r == a || r == b)
  {
    if a <= b then a else b
  }

  /* ---------------- Nearest row ---------------- */

  /** `Math.abs(mids[i] - centerInWrap)` */
  function Distance(mids: seq<real>, i: nat, centre: real): real
    requires i < |mids|
  {
    Abs(mids[i] - centre)
  }

  /** `bestDist`, which starts at `Infinity`. */
  datatype Bound = Infinity | Finite(value: real)

  predicate Below(d: real, b: Bound) {
    b.Infinity? || d < b.value
  }

  /** The loop over the year rows from row `i` on, carrying `bestIdx` and
      `bestDist`; a row replaces the best only when strictly nearer. The row's
      `data-index` is its position, as `renderCareer` builds the rows. */
  function Scan(mids: seq<real>, centre: real, i: nat, bestIdx: nat, bestDist: Bound): (r: nat)
    requires i <= |mids|
    ensures r == bestIdx || i <= r < |mids|
    ensures bestDist.Infinity? && i < |mids| ==> i <= r < |mids|
    decreases |mids| - i
  {
    if i == |mids| then bestIdx
    else
      var d := Distance(mids, i, centre);
      if Below(d, bestDist) then Scan(mids, centre, i + 1, i, Finite(d))
      else Scan(mids, centre, i + 1, bestIdx, bestDist)
  }

  /** `bestIdx` after the loop, started from `0` and `Infinity`: over at
      least one row, a nearest row and the first of them. */
  function NearestIndex(mids: seq<real>, centre: real): (k: nat)
    ensures |mids| > 0 ==> IsNearest(mids, centre, k)
    ensures |mids| == 0 ==> k == 0
  {
    ScanFindsNearest(mids, centre, 0, 0, Infinity);
    Scan(mids, centre, 0, 0, Infinity)
  }

  /** Row `k` is at least as near the centre as any row and strictly nearer
      than every row before it. */
  predicate IsNearest(mids: seq<real>, centre: real, k: nat) {
    && k < |mids|
    && (forall j :: 0 <= j < |mids| ==> Distance(mids, k, centre) <= Distance(mids, j, centre))
    && (forall j :: 0 <= j < k ==> Distance(mids, k, centre) < Distance(mids, j, centre))
  }

  /** What holds of `(bestIdx, bestDist)` before row `i` is looked at. */
  predicate ScanInvariant(mids: seq<real>, centre: real, i: nat, bestIdx: nat, bestDist: Bound) {
    && i <= |mids|
    && (i == 0 ==> bestIdx == 0 && bestDist == Infinity)
    && (i > 0 ==>
          && bestIdx < i
          && bestDist == Finite(Distance(mids, bestIdx, centre))
          && (forall j :: 0 <= j < i ==> Distance(mids, bestIdx, centre) <= Distance(mids, j, centre))
          && (forall j :: 0 <= j < bestIdx ==> Distance(mids, bestIdx, centre) < Distance(mids, j, centre)))
  }

  lemma {:induction false} ScanFindsNearest(mids: seq<real>, centre: real, i: nat, bestIdx: nat, bestDist: Bound)
    requires ScanInvariant(mids, centre, i, bestIdx, bestDist)
    ensures |mids| > 0 ==> IsNearest(mids, centre, Scan(mids, centre, i, bestIdx, bestDist))
    decreases |mids| - i
  {
    if i < |mids| {
      var d := Distance(mids, i, centre);
      if Below(d, bestDist) {
        assert ScanInvariant(mids, centre, i + 1, i, Finite(d));
        ScanFindsNearest(mids, centre, i + 1, i, Finite(d));
      } else {
        assert ScanInvariant(mids, centre, i + 1, bestIdx, bestDist);
        ScanFindsNearest(mids, centre, i + 1, bestIdx, bestDist);
      }
    }
  }

  /** At most one row is nearest in this sense: ties go to the lowest index. */
  lemma NearestIsUnique(mids: seq<real>, centre: real, k1: nat, k2: nat)
    requires IsNearest(mids, centre, k1) && IsNearest(mids, centre, k2)
    ensures k1 == k2
  {
    var d1, d2 := Distance(mids, k1, centre), Distance(mids, k2, centre);
    assert d1 <= d2;
    assert d2 <= d1;
  }

  /** A centre exactly on row `k`'s midpoint selects `k`, unless an earlier
      row shares that midpoint. */
  lemma CentreOnMidpointSelectsRow(mids: seq<real>, centre: real, k: nat)
    requires k < |mids| && mids[k] == centre
    requires forall j :: 0 <= j < k ==> mids[j] != centre
    ensures NearestIndex(mids, centre) == k
  {
    NearestIsUnique(mids, centre, k, NearestIndex(mids, centre));
  }

  /** A centre exactly half-way between rows `i < j` never selects `j`
      by itself winning the tie. */
  lemma HalfwayTieGoesToLower(mids: seq<real>, centre: real, i: nat, j: nat)
    requires i < j < |mids|
    requires centre - mids[i] == mids[j] - centre
    ensures NearestIndex(mids, centre) != j
  {
    assert Distance(mids, i, centre) == Distance(mids, j, centre);
  }

  /* ---------------- Progress dot ---------------- */

  /** `Math.max(1, last - first)`: never below 1, so never zero. */
  function Span(first: real, last: real): (d: real)
    ensures d >= 1.0
    ensures d >= last - first
  {
    Max(1.0, last - first)
  }

  /** `Math.min(1, Math.max(0, t))` with `t = (centre - first) / span`. */
  function Progress(centre: real, first: real, last: real): (p: real)
    ensures 0.0 <= p <= 1.0
    ensures centre <= first ==> p == 0.0
    ensures last - first >= 1.0 && centre >= last ==> p == 1.0
  {
    var span := Span(first, last);
    var t := (centre - first) / span;
    QuotientEnds(centre, first, last, span);
    Min(1.0, Max(0.0, t))
  }

  /** Between the first midpoint and one span below it, progress is the
      linear fraction `(centre - first) / span`: no clamping applies. */
  lemma ProgressInterpolates(centre: real, first: real, last: real)
    requires first <= centre <= first + Span(first, last)
    ensures Progress(centre, first, last) == (centre - first) / Span(first, last)
  {
    var span := Span(first, last);
    DivNonNegative(centre - first, span);
    DivAtMostOne(centre - first, span);
  }

  /** So equal steps of the centre move progress by equal amounts. */
  lemma ProgressLinear(c1: real, c2: real, first: real, last: real)
    requires first <= c1 <= c2 <= first + Span(first, last)
    ensures Progress(c2, first, last) - Progress(c1, first, last) == (c2 - c1) / Span(first, last)
  {
    var span := Span(first, last);
    ProgressInterpolates(c1, first, last);
    ProgressInterpolates(c2, first, last);
    DivSub(c2 - first, c1 - first, span);
  }

  lemma DivNonNegative(a: real, b: real)
    requires a >= 0.0 && b > 0.0
    ensures a / b >= 0.0
  {
  }

  lemma DivAtMostOne(a: real, b: real)
    requires a <= b && b > 0.0
    ensures a / b <= 1.0
  {
  }

  lemma DivSub(a1: real, a2: real, b: real)
    requires b > 0.0
    ensures a1 / b - a2 / b == (a1 - a2) / b
  {
  }

  lemma QuotientEnds(centre: real, first: real, last: real, span: real)
    requires span == Span(first, last)
    ensures centre <= first ==> (centre - first) / span <= 0.0
    ensures last - first >= 1.0 && centre >= last ==> (centre - first) / span >= 1.0
  {
    if centre <= first {
      DivNonPositive(centre - first, span);
    }
    if last - first >= 1.0 && centre >= last {
      DivAtLeastOne(centre - first, span);
    }
  }

  lemma DivNonPositive(a: real, b: real)
    requires a <= 0.0 && b > 0.0
    ensures a / b <= 0.0
  {
  }

  lemma DivAtLeastOne(a: real, b: real)
    requires a >= b && b > 0.0
    ensures a / b >= 1.0
  {
  }

  lemma DivMonotone(a1: real, a2: real, b: real)
    requires a1 <= a2 && b > 0.0
    ensures a1 / b <= a2 / b
  {
  }

  /** The dot moves down, never up, as the centre moves down. */
  lemma ProgressMonotone(c1: real, c2: real, first: real, last: real)
    requires c1 <= c2
    ensures Progress(c1, first, last) <= Progress(c2, first, last)
  {
    DivMonotone(c1 - first, c2 - first, Span(first, last));
  }

  /** `dot.offsetHeight || 10`: an unmeasured (zero) dot counts as 10px. */
  function DotHeight(offsetHeight: nat): (h: real)
    ensures h > 0.0
    ensures offsetHeight == 0 ==> h == 10.0
    ensures offsetHeight > 0 ==> h == offsetHeight as real
  {
    if offsetHeight == 0 then 10.0 else offsetHeight as real
  }

  function MinY(dotH: real): real { dotH / 2.0 }

  /** `Math.max(minY, wrapRect.height - dotH / 2)` */
  function MaxY(dotH: real, wrapHeight: real): (m: real)
    ensures m >= MinY(dotH)
  {
    Max(MinY(dotH), wrapHeight - dotH / 2.0)
  }

  /** `minY + progress * (maxY - minY)` */
  function DotY(progress: real, dotH: real, wrapHeight: real): (y: real)
    requires 0.0 <= progress <= 1.0
    ensures MinY(dotH) <= y <= MaxY(dotH, wrapHeight)
    ensures progress == 0.0 ==> y == MinY(dotH)
    ensures progress == 1.0 ==> y == MaxY(dotH, wrapHeight)
  {
    var lo, hi := MinY(dotH), MaxY(dotH, wrapHeight);
    ScaleWithin(progress, hi - lo);
    lo + progress * (hi - lo)
  }

  /** The dot moves linearly with progress: a step in progress moves it by
      that step times the track length. */
  lemma DotYLinear(p1: real, p2: real, dotH: real, wrapHeight: real)
    requires 0.0 <= p1 <= 1.0 && 0.0 <= p2 <= 1.0
    ensures DotY(p2, dotH, wrapHeight) - DotY(p1, dotH, wrapHeight)
              == (p2 - p1) * (MaxY(dotH, wrapHeight) - MinY(dotH))
  {
    var w := MaxY(dotH, wrapHeight) - MinY(dotH);
    assert p2 * w - p1 * w == (p2 - p1) * w;
  }

  lemma ScaleWithin(p: real, w: real)
    requires 0.0 <= p <= 1.0 && w >= 0.0
    ensures 0.0 <= p * w <= w
  {
  }

  lemma ScaleMonotone(p1: real, p2: real, w: real)
    requires p1 <= p2 && w >= 0.0
    ensures p1 * w <= p2 * w
  {
  }

  /** The dot offset written to `dot.style.top` and `fill.style.height`,
      from the row midpoints (first and last) and the viewport centre. */
  function DotOffset(mids: seq<real>, centre: real, offsetHeight: nat, wrapHeight: real): (y: real)
    requires |mids| > 0
    ensures MinY(DotHeight(offsetHeight)) <= y <= MaxY(DotHeight(offsetHeight), wrapHeight)
    ensures centre <= mids[0] ==> y == MinY(DotHeight(offsetHeight))
    ensures mids[|mids| - 1] - mids[0] >= 1.0 && centre >= mids[|mids| - 1] ==>
              y == MaxY(DotHeight(offsetHeight), wrapHeight)
  {
    var progress := Progress(centre, mids[0], mids[|mids| - 1]);
    DotY(progress, DotHeight(offsetHeight), wrapHeight)
  }

  /** While the centre is between the first midpoint and one span below it,
      the dot sits at the same fraction of the track. */
  lemma DotOffsetInterpolates(mids: seq<real>, centre: real, offsetHeight: nat, wrapHeight: real)
    requires |mids| > 0
    requires mids[0] <= centre <= mids[0] + Span(mids[0], mids[|mids| - 1])
    ensures var dotH := DotHeight(offsetHeight);
            DotOffset(mids, centre, offsetHeight, wrapHeight)
              == MinY(dotH) + (centre - mids[0]) / Span(mids[0], mids[|mids| - 1]) * (MaxY(dotH, wrapHeight) - MinY(dotH))
  {
    ProgressInterpolates(centre, mids[0], mids[|mids| - 1]);
  }

  /** Scrolling further down never moves the dot up. */
  lemma DotOffsetMonotone(mids: seq<real>, c1: real, c2: real, offsetHeight: nat, wrapHeight: real)
    requires |mids| > 0 && c1 <= c2
    ensures DotOffset(mids, c1, offsetHeight, wrapHeight) <= DotOffset(mids, c2, offsetHeight, wrapHeight)
  {
    var first, last := mids[0], mids[|mids| - 1];
    var dotH := DotHeight(offsetHeight);
    var lo, w := MinY(dotH), MaxY(dotH, wrapHeight) - MinY(dotH);
    var p1, p2 := Progress(c1, first, last), Progress(c2, first, last);
    ProgressMonotone(c1, c2, first, last);
    ScaleMonotone(p1, p2, w);
    var y1, y2 := lo + p1 * w, lo + p2 * w;
    assert y1 <= y2;
    assert DotOffset(mids, c1, offsetHeight, wrapHeight) == y1;
    assert DotOffset(mids, c2, offsetHeight, wrapHeight) == y2;
  }
}

=== FILE: catalog.dfy ===
/** The project catalog: the tag vocabulary (`uniqueTags`) and the visible
    list (`filteredProjects`), both pure functions of the loaded records and
    of the view state `(activeTag, query)`. */
module Catalog {
  import opened Text
  import opened Projects
  import opened ProjectOrder

  /** The sentinel tag that disables tag filtering. */
  const AllTag := "All"

  function Elems(xs: seq<string>): set<string> { set x | x in xs }

  /* ---------------- Tag vocabulary ---------------- */

  /** Every tag of every record. */
  function TagUnion(ps: seq<Project>): (u: set<string>)
    ensures forall p, t :: p in ps && t in TagsOf(p) ==> t in u
    ensures forall t :: t in u ==> exists p :: p in ps && t in TagsOf(p)
  {
    if ps == [] then {} else Elems(TagsOf(ps[0])) + TagUnion(ps[1..])
  }

  predicate StrictlySorted(xs: seq<string>) {
    forall i, j :: 0 <= i < j < |xs| ==> Less(xs[i], xs[j])
  }

  lemma StrictlySortedTail(xs: seq<string>)
    requires StrictlySorted(xs) && xs != []
    ensures StrictlySorted(xs[1..])
  {
    forall i, j | 0 <= i < j < |xs| - 1 ensures Less(xs[1..][i], xs[1..][j]) {
      assert xs[1..][i] == xs[i + 1] && xs[1..][j] == xs[j + 1];
    }
  }

  lemma StrictlySortedCons(t: string, xs: seq<string>)
    requires StrictlySorted(xs)
    requires forall y :: y in xs ==> Less(t, y)
    ensures StrictlySorted([t] + xs)
  {
    var r := [t] + xs;
    forall i, j | 0 <= i < j < |r| ensures Less(r[i], r[j]) {
      assert r[j] == xs[j - 1];
      if i > 0 { assert r[i] == xs[i - 1]; }
    }
  }

  lemma ElemsCons(x: string, xs: seq<string>)
    ensures Elems([x] + xs) == {x} + Elems(xs)
  {
    assert forall y :: y in [x] + xs <==> y == x || y in xs;
  }

  /** Putting `t` in front of a list whose head it precedes. */
  lemma InsertTagFront(t: string, xs: seq<string>)
    requires StrictlySorted(xs) && xs != [] && Less(t, xs[0])
    ensures StrictlySorted([t] + xs)
    ensures Elems([t] + xs) == Elems(xs) + {t}
  {
    forall y | y in xs ensures Less(t, y) {
      var j :| 0 <= j < |xs| && xs[j] == y;
      if j > 0 { LessTransitive(t, xs[0], y); }
    }
    StrictlySortedCons(t, xs);
    ElemsCons(t, xs);
  }

  /** Keeping the head of a list whose head precedes `t`, in front of the
      tail with `t` inserted. */
  lemma InsertTagBehind(t: string, xs: seq<string>, rest: seq<string>)
    requires StrictlySorted(xs) && xs != [] && Less(xs[0], t)
    requires StrictlySorted(rest) && Elems(rest) == Elems(xs[1..]) + {t}
    ensures StrictlySorted([xs[0]] + rest)
    ensures Elems([xs[0]] + rest) == Elems(xs) + {t}
  {
    forall y | y in rest ensures Less(xs[0], y) {
      if y != t {
        assert y in Elems(rest);
        assert y in Elems(xs[1..]);
        var j :| 0 <= j < |xs[1..]| && xs[1..][j] == y;
        assert xs[j + 1] == y;
      }
    }
    StrictlySortedCons(xs[0], rest);
    ElemsCons(xs[0], rest);
    assert xs == [xs[0]] + xs[1..];
    ElemsCons(xs[0], xs[1..]);
  }

  /** Adds `t` to a strictly sorted list of distinct tags (a `Set.add`
      followed by keeping the set in sorted order). */
  function InsertTag(xs: seq<string>, t: string): (r: seq<string>)
    requires StrictlySorted(xs)
    ensures StrictlySorted(r)
    ensures Elems(r) == Elems(xs) + {t}
  {
    if xs == [] then [t]
    else if t == xs[0] then
      xs
    else if Less(t, xs[0]) then
      InsertTagFront(t, xs);
      [t] + xs
    else
      StrictlySortedTail(xs);
      var rest := InsertTag(xs[1..], t);
      LessTotal(t, xs[0]);
      InsertTagBehind(t, xs, rest);
      [xs[0]] + rest
  }

  function AddTags(acc: seq<string>, ts: seq<string>): (r: seq<string>)
    requires StrictlySorted(acc)
    ensures StrictlySorted(r)
    ensures Elems(r) == Elems(acc) + Elems(ts)
    decreases |ts|
  {
    if ts == [] then acc
    else
      assert Elems(ts) == {ts[0]} + Elems(ts[1..]);
      AddTags(InsertTag(acc, ts[0]), ts[1..])
  }

  /** `projects.forEach(p => (p.tags || []).forEach(t => set.add(t)))`, with
      the set kept sorted. */
  function CollectTags(acc: seq<string>, ps: seq<Project>): (r: seq<string>)
    requires StrictlySorted(acc)
    ensures StrictlySorted(r)
    ensures Elems(r) == Elems(acc) + TagUnion(ps)
    decreases |ps|
  {
    if ps == [] then acc
    else CollectTags(AddTags(acc, TagsOf(ps[0])), ps[1..])
  }

  lemma StrictlySortedDistinct(xs: seq<string>)
    requires StrictlySorted(xs)
    ensures forall i, j :: 0 <= i < j < |xs| ==> xs[i] != xs[j]
  {
    forall i, j | 0 <= i < j < |xs| ensures xs[i] != xs[j] {
      LessIrreflexive(xs[i]);
    }
  }

  /** `uniqueTags(projects)`: "All", then every tag of every record exactly
      once, in increasing order. A record tag spelled "All" is kept as well,
      as the source does. */
  function UniqueTags(ps: seq<Project>): (r: seq<string>)
    ensures |r| >= 1 && r[0] == AllTag
    ensures StrictlySorted(r[1..])
    ensures forall i, j :: 1 <= i < j < |r| ==> r[i] != r[j]
    ensures Elems(r[1..]) == TagUnion(ps)
  {
    var sorted := CollectTags([], ps);
    StrictlySortedDistinct(sorted);
    var r := [AllTag] + sorted;
    assert r[1..] == sorted;
    r
  }

  /** A finite set has one strictly sorted listing, so the tag bar does not
      depend on the set's insertion order or on the sort algorithm. */
  lemma {:induction false} SortedListingUnique(a: seq<string>, b: seq<string>)
    requires StrictlySorted(a) && StrictlySorted(b) && Elems(a) == Elems(b)
    ensures a == b
    decreases |a|
  {
    assert a != [] ==> a[0] in Elems(b);
    assert b != [] ==> b[0] in Elems(a);
    if a != [] && b != [] {
      assert a[0] in Elems(b) && b[0] in Elems(a);
      assert forall y :: y in a[1..] ==> Less(a[0], y);
      assert forall y :: y in b[1..] ==> Less(b[0], y);
      assert a[0] == b[0] || a[0] in b[1..];
      assert b[0] == a[0] || b[0] in a[1..];
      LessAsymmetric(a[0], b[0]);
      assert a[0] == b[0];
      StrictlySortedTail(a);
      StrictlySortedTail(b);
      StrictlySortedDistinct(a);
      StrictlySortedDistinct(b);
      assert Elems(a[1..]) == Elems(a) - {a[0]} by {
        assert a == [a[0]] + a[1..];
      }
      assert Elems(b[1..]) == Elems(b) - {b[0]} by {
        assert b == [b[0]] + b[1..];
      }
      SortedListingUnique(a[1..], b[1..]);
      assert a == [a[0]] + a[1..] && b == [b[0]] + b[1..];
    }
  }

  lemma {:induction false} DistinctCount(xs: seq<string>)
    requires forall i, j :: 0 <= i < j < |xs| ==> xs[i] != xs[j]
    ensures |Elems(xs)| == |xs|
    decreases |xs|
  {
    if xs != [] {
      assert xs == [xs[0]] + xs[1..];
      assert Elems(xs) == {xs[0]} + Elems(xs[1..]);
      assert xs[0] !in Elems(xs[1..]);
      DistinctCount(xs[1..]);
    }
  }

  /** The "tags" statistic, `Math.max(0, state.tags.length - 1)`: the
      number of entries after the leading one, none for an empty bar. */
  function TagStatistic(tags: seq<string>): (n: nat)
    ensures tags != [] ==> n == |tags[1..]|
    ensures tags == [] ==> n == 0
  {
    if |tags| >= 1 then |tags| - 1 else 0
  }

  /** The statistic counts the distinct tags of the catalog. */
  lemma TagStatisticCountsTags(ps: seq<Project>)
    ensures TagStatistic(UniqueTags(ps)) == |TagUnion(ps)|
  {
    var r := UniqueTags(ps);
    DistinctCount(r[1..]);
  }

  /* ---------------- Filtering ---------------- */

  /** `r` is `xs` with some elements left out, the rest in their order. */
  predicate IsSubsequence(r: seq<Project>, xs: seq<Project>)
    decreases |xs|
  {
    if r == [] then true
    else if xs == [] then false
    else (r[0] == xs[0] && IsSubsequence(r[1..], xs[1..])) || IsSubsequence(r, xs[1..])
  }

  /** `list.filter(f)`: the passing elements, each as often as in `xs`, in
      their order in `xs`. */
  function Filter(xs: seq<Project>, f: Project -> bool): (r: seq<Project>)
    ensures forall x :: x in r <==> x in xs && f(x)
    ensures forall x :: multiset(r)[x] == if f(x) then multiset(xs)[x] else 0
    ensures IsSubsequence(r, xs)
    ensures |r| <= |xs|
    decreases |xs|
  {
    if xs == [] then []
    else
      var rest := Filter(xs[1..], f);
      assert xs == [xs[0]] + xs[1..];
      assert multiset(xs) == multiset{xs[0]} + multiset(xs[1..]);
      if f(xs[0]) then
        assert ([xs[0]] + rest)[1..] == rest;
        [xs[0]] + rest
      else
        rest
  }

  lemma {:induction false} FilterCompose(xs: seq<Project>, f: Project -> bool, g: Project -> bool, h: Project -> bool)
    requires forall x :: h(x) == (f(x) && g(x))
    ensures Filter(Filter(xs, f), g) == Filter(xs, h)
    decreases |xs|
  {
    if xs != [] {
      FilterCompose(xs[1..], f, g, h);
      var rest := Filter(xs[1..], f);
      if f(xs[0]) {
        assert Filter(xs, f) == [xs[0]] + rest;
        assert ([xs[0]] + rest)[1..] == rest;
      } else {
        assert Filter(xs, f) == rest;
      }
    }
  }

  lemma {:induction false} FilterSame(xs: seq<Project>, f: Project -> bool, g: Project -> bool)
    requires forall x :: f(x) == g(x)
    ensures Filter(xs, f) == Filter(xs, g)
    decreases |xs|
  {
    if xs != [] { FilterSame(xs[1..], f, g); }
  }

  lemma {:induction false} FilterKeepsAll(xs: seq<Project>, f: Project -> bool)
    requires forall x :: f(x)
    ensures Filter(xs, f) == xs
    decreases |xs|
  {
    if xs != [] {
      FilterKeepsAll(xs[1..], f);
      assert f(xs[0]);
      assert Filter(xs, f) == [xs[0]] + Filter(xs[1..], f);
      assert xs == [xs[0]] + xs[1..];
    }
  }

  lemma {:induction false} FilterKeepsNone(xs: seq<Project>, f: Project -> bool)
    requires forall x :: x in xs ==> !f(x)
    ensures Filter(xs, f) == []
    decreases |xs|
  {
    if xs != [] {
      FilterKeepsNone(xs[1..], f);
    }
  }

  /** The text searched by the query: name, description, tags and
      highlights, joined by single spaces as the template literal does. Each
      of them can be found in it. */
  function Haystack(p: Project): (h: string)
    ensures Contains(h, p.name) && Contains(h, p.description)
    ensures forall t :: t in TagsOf(p) ==> Contains(h, t)
    ensures forall t :: t in HighlightsOf(p) ==> Contains(h, t)
  {
    var tags, highs := Join(TagsOf(p), " "), Join(HighlightsOf(p), " ");
    HaystackParts(p.name, p.description, TagsOf(p), HighlightsOf(p));
    p.name + " " + p.description + " " + tags + " " + highs
  }

  /** The converse: a query without a space is found in the search text
      exactly when it is found in the name, the description, a tag or a
      highlight. The separators add no match of their own. */
  lemma HaystackMatchesAField(p: Project, q: string)
    requires ' ' !in q
    ensures Contains(Haystack(p), q) <==>
              || Contains(p.name, q)
              || Contains(p.description, q)
              || (exists t :: t in TagsOf(p) && Contains(t, q))
              || (exists t :: t in HighlightsOf(p) && Contains(t, q))
  {
    if q != [] {
      var tags, highs := Join(TagsOf(p), " "), Join(HighlightsOf(p), " ");
      var a2 := p.name + " " + p.description;
      var a3 := a2 + " " + tags;
      assert Haystack(p) == a3 + " " + highs;
      ContainsAcrossSpace(a3, highs, q);
      ContainsAcrossSpace(a2, tags, q);
      ContainsAcrossSpace(p.name, p.description, q);
      ContainsJoin(TagsOf(p), q);
      ContainsJoin(HighlightsOf(p), q);
    }
  }

  lemma HaystackParts(name: string, desc: string, tags: seq<string>, highs: seq<string>)
    ensures var h := name + " " + desc + " " + Join(tags, " ") + " " + Join(highs, " ");
            && Contains(h, name) && Contains(h, desc)
            && (forall t :: t in tags ==> Contains(h, t))
            && (forall t :: t in highs ==> Contains(h, t))
  {
    var jt, jh := Join(tags, " "), Join(highs, " ");
    var h := name + " " + desc + " " + jt + " " + jh;
    assert h == [] + name + (" " + desc + " " + jt + " " + jh);
    PrefixContained(name, name);
    ContainsWithin([], name, " " + desc + " " + jt + " " + jh, name);
    assert h == (name + " ") + desc + (" " + jt + " " + jh);
    PrefixContained(desc, desc);
    ContainsWithin(name + " ", desc, " " + jt + " " + jh, desc);
    forall t | t in tags ensures Contains(h, t) {
      var i :| 0 <= i < |tags| && tags[i] == t;
      assert h == (name + " " + desc + " ") + jt + (" " + jh);
      ContainsWithin(name + " " + desc + " ", jt, " " + jh, t);
    }
    forall t | t in highs ensures Contains(h, t) {
      var i :| 0 <= i < |highs| && highs[i] == t;
      assert h == (name + " " + desc + " " + jt + " ") + jh + [];
      ContainsWithin(name + " " + desc + " " + jt + " ", jh, [], t);
    }
  }

  /** `state.query.trim().toLowerCase()` */
  function NormalizeQuery(query: string): (q: string)
    ensures q == [] <==> AllSpace(query)
  {
    Lower(Trim(query))
  }

  predicate TagMatches(p: Project, activeTag: string) {
    activeTag == AllTag || activeTag in TagsOf(p)
  }

  predicate QueryMatches(p: Project, q: string) {
    q == [] || Contains(Lower(Haystack(p)), q)
  }

  /** When a record belongs to the visible list, for the normalized query `q`. */
  predicate Qualifies(p: Project, activeTag: string, q: string) {
    TagMatches(p, activeTag) && QueryMatches(p, q)
  }

  function TagTest(activeTag: string): Project -> bool {
    p => activeTag in TagsOf(p)
  }

  function SearchTest(q: string): Project -> bool {
    p => Contains(Lower(Haystack(p)), q)
  }

  function QualifiesTest(activeTag: string, q: string): Project -> bool {
    p => Qualifies(p, activeTag, q)
  }

  /** The reference selection: one pass keeping the qualifying records in
      input order. */
  function Qualifying(ps: seq<Project>, activeTag: string, query: string): seq<Project> {
    Filter(ps, QualifiesTest(activeTag, NormalizeQuery(query)))
  }

  /** The two filters of `filteredProjects`, applied in the source's order,
      select what the one-pass reference selects. */
  function SelectProjects(projects: seq<Project>, activeTag: string, query: string): (r: seq<Project>)
    ensures r == Qualifying(projects, activeTag, query)
  {
    var byTag := if activeTag != AllTag then Filter(projects, TagTest(activeTag)) else projects;
    var q := NormalizeQuery(query);
    var byQuery := if q != [] then Filter(byTag, SearchTest(q)) else byTag;
    SelectionAgrees(projects, activeTag, query);
    byQuery
  }

  lemma SelectionAgrees(projects: seq<Project>, activeTag: string, query: string)
    ensures (var byTag := if activeTag != AllTag then Filter(projects, TagTest(activeTag)) else projects;
             var q := NormalizeQuery(query);
             (if q != [] then Filter(byTag, SearchTest(q)) else byTag) == Qualifying(projects, activeTag, query))
  {
    var q := NormalizeQuery(query);
    if activeTag != AllTag && q != [] {
      SelectBoth(projects, activeTag, q);
    } else if activeTag != AllTag {
      SelectTagOnly(projects, activeTag, q);
    } else if q != [] {
      SelectSearchOnly(projects, activeTag, q);
    } else {
      SelectNeither(projects, activeTag, q);
    }
  }

  lemma SelectBoth(projects: seq<Project>, activeTag: string, q: string)
    requires activeTag != AllTag && q != []
    ensures Filter(Filter(projects, TagTest(activeTag)), SearchTest(q)) == Filter(projects, QualifiesTest(activeTag, q))
  {
    var f, g, h := TagTest(activeTag), SearchTest(q), QualifiesTest(activeTag, q);
    forall x ensures h(x) == (f(x) && g(x)) {
      assert h(x) == Qualifies(x, activeTag, q);
    }
    FilterCompose(projects, f, g, h);
  }

  lemma SelectTagOnly(projects: seq<Project>, activeTag: string, q: string)
    requires activeTag != AllTag && q == []
    ensures Filter(projects, TagTest(activeTag)) == Filter(projects, QualifiesTest(activeTag, q))
  {
    var f, h := TagTest(activeTag), QualifiesTest(activeTag, q);
    forall x ensures f(x) == h(x) {
      assert h(x) == Qualifies(x, activeTag, q);
    }
    FilterSame(projects, f, h);
  }

  lemma SelectSearchOnly(projects: seq<Project>, activeTag: string, q: string)
    requires activeTag == AllTag && q != []
    ensures Filter(projects, SearchTest(q)) == Filter(projects, QualifiesTest(activeTag, q))
  {
    var g, h := SearchTest(q), QualifiesTest(activeTag, q);
    forall x ensures g(x) == h(x) {
      assert h(x) == Qualifies(x, activeTag, q);
    }
    FilterSame(projects, g, h);
  }

  lemma SelectNeither(projects: seq<Project>, activeTag: string, q: string)
    requires activeTag == AllTag && q == []
    ensures projects == Filter(projects, QualifiesTest(activeTag, q))
  {
    var h := QualifiesTest(activeTag, q);
    forall x ensures h(x) {
      assert h(x) == Qualifies(x, activeTag, q);
    }
    FilterKeepsAll(projects, h);
  }

  /** `filteredProjects()` over the state `(projects, activeTag, query)`:
      exactly the qualifying records, in comparator order, records equal on
      both keys in catalog order. `projects` itself is a value and is not
      changed. */
  function FilteredProjects(projects: seq<Project>, activeTag: string, query: string): (r: seq<Project>)
    ensures forall p :: p in r <==> p in projects && Qualifies(p, activeTag, NormalizeQuery(query))
    ensures multiset(r) == multiset(Qualifying(projects, activeTag, query))
    ensures Ordered(r)
    ensures SameKeyRuns(r, Qualifying(projects, activeTag, query))
  {
    var selected := SelectProjects(projects, activeTag, query);
    assert forall p :: p in selected <==> p in projects && Qualifies(p, activeTag, NormalizeQuery(query));
    var r := SortProjects(selected);
    assert forall p :: p in r <==> p in multiset(selected);
    r
  }

  /* ---------------- Consequences ---------------- */

  /** The query is lower-cased before matching, so its letter case never
      changes the visible list. */
  lemma SearchIgnoresQueryCase(projects: seq<Project>, activeTag: string, query: string)
    ensures FilteredProjects(projects, activeTag, Lower(query)) == FilteredProjects(projects, activeTag, query)
  {
    TrimLower(query);
    LowerIdempotent(Trim(query));
    assert NormalizeQuery(Lower(query)) == NormalizeQuery(query);
    assert SelectProjects(projects, activeTag, Lower(query)) == SelectProjects(projects, activeTag, query);
  }

  /** Any list a stable sort could return from the qualifying records is the
      visible list. */
  lemma VisibleListIsTheStableOrder(projects: seq<Project>, activeTag: string, query: string, other: seq<Project>)
    requires Ordered(other)
    requires SameKeyRuns(other, Qualifying(projects, activeTag, query))
    ensures other == FilteredProjects(projects, activeTag, query)
  {
    StableOrderUnique(other, FilteredProjects(projects, activeTag, query));
  }

  /** With tag "All" and a blank query every record is shown, sorted. */
  lemma NoFilterShowsAll(projects: seq<Project>, query: string)
    requires AllSpace(query)
    ensures FilteredProjects(projects, AllTag, query) == SortProjects(projects)
  {
    var q := NormalizeQuery(query);
    SelectNeither(projects, AllTag, q);
    assert SelectProjects(projects, AllTag, query) == projects;
  }

  /** A tag that no record carries selects nothing. */
  lemma UnknownTagShowsNothing(projects: seq<Project>, activeTag: string, query: string)
    requires activeTag != AllTag && activeTag !in TagUnion(projects)
    ensures FilteredProjects(projects, activeTag, query) == []
  {
    FilterKeepsNone(projects, QualifiesTest(activeTag, NormalizeQuery(query)));
  }

  /** The empty-state indicator is visible exactly when nothing qualifies
      (`empty.hidden = list.length !== 0`). */
  lemma EmptyStateIffNothingQualifies(projects: seq<Project>, activeTag: string, query: string)
    ensures FilteredProjects(projects, activeTag, query) == [] <==>
            forall p :: p in projects ==> !Qualifies(p, activeTag, NormalizeQuery(query))
  {
    var r := FilteredProjects(projects, activeTag, query);
    forall p | p in projects && Qualifies(p, activeTag, NormalizeQuery(query)) ensures r != [] {
      assert p in r;
    }
    if forall p :: p in projects ==> !Qualifies(p, activeTag, NormalizeQuery(query)) {
      FilterKeepsNone(projects, QualifiesTest(activeTag, NormalizeQuery(query)));
    }
  }
}

=== FILE: contact.dfy ===
/** The header's email switch: a link showing the work or the private
    address, and a toggle that flips between them and copies the new one. */
module Contact {
  import opened Wrappers

  datatype EmailMode = Work | Private

  const WorkEmail := "mpu@2bm.dk"
  const PrivateEmail := "maurits.pug@gmail.com"
  const Check := " \U{2713}"

  /** The address shown for a mode; the two addresses differ, so the
      address tells which mode is on. */
  function Address(mode: EmailMode): (a: string)
    ensures a == WorkEmail <==> mode.Work?
    ensures a == PrivateEmail <==> mode.Private?
  {
    assert |WorkEmail| != |PrivateEmail|;
    if mode.Work? then WorkEmail else PrivateEmail
  }

  /** The toggle's text: "Work" exactly in work mode, "Private" exactly in
      private mode. */
  function Label(mode: EmailMode): (r: string)
    ensures r == "Work" <==> mode.Work?
    ensures r == "Private" <==> mode.Private?
  {
    if mode.Work? then "Work" else "Private"
  }

  /** The other mode. */
  function Flip(mode: EmailMode): (r: EmailMode)
    ensures r != mode
    ensures r.Work? <==> mode.Private?
  {
    if mode.Work? then Private else Work
  }

  /** The `topEmail` link's text and `href`. */
  datatype Link = Link(text: string, href: string)

  /** `link` and `toggle` are `None` when the page lacks those elements. */
  datatype Header = Header(mode: EmailMode, link: Option<Link>, toggle: Option<string>)

  /** The link shows `mode`'s address and mails it; the toggle names it. */
  predicate Displays(h: Header, mode: EmailMode) {
    && h.mode == mode
    && (h.link.Some? ==> h.link.value == Link(Address(mode), "mailto:" + Address(mode)))
    && (h.toggle.Some? ==> h.toggle.value == Label(mode))
  }

  /** `setTopEmail(mode)`. */
  function SetTopEmail(h: Header, mode: EmailMode): (r: Header)
    ensures Displays(r, mode)
    ensures r.link.Some? <==> h.link.Some?
    ensures r.toggle.Some? <==> h.toggle.Some?
  {
    var email := Address(mode);
    Header(mode,
           if h.link.Some? then Some(Link(email, "mailto:" + email)) else None,
           if h.toggle.Some? then Some(Label(mode)) else None)
  }

  /** The header as `init` leaves it, before any click. */
  function Start(h: Header): (r: Header)
    ensures Displays(r, Work)
  {
    SetTopEmail(h, Work)
  }

  /** After a click: the header, the address handed to the clipboard, and
      whether the 900 ms revert was scheduled (only when copying worked). */
  datatype Clicked = Clicked(header: Header, copied: string, revertScheduled: bool)

  /** The toggle's click handler. A listener exists only when the page has
      the toggle; `clipboardOk` is the outcome of `writeText`. */
  function Click(h: Header, clipboardOk: bool): (c: Clicked)
    requires h.toggle.Some?
    ensures c.header.mode == Flip(h.mode)
    ensures c.copied == Address(c.header.mode)
    ensures c.header.link.Some? ==> c.header.link.value.text == c.copied
    ensures c.header.link.Some? <==> h.link.Some?
    ensures c.header.link.Some? ==> c.header.link.value == Link(c.copied, "mailto:" + c.copied)
    ensures c.header.toggle.Some?
    ensures c.revertScheduled == clipboardOk
    ensures clipboardOk ==> c.header.toggle == Some(Label(c.header.mode) + Check)
    ensures !clipboardOk ==> Displays(c.header, c.header.mode)
  {
    var shown := SetTopEmail(h, Flip(h.mode));
    var email := Address(shown.mode);
    if clipboardOk then Clicked(shown.(toggle := Some(Label(shown.mode) + Check)), email, true)
    else Clicked(shown, email, false)
  }

  /** The timer's callback: `setTopEmail` with the mode current when it
      fires, which drops the check mark. */
  function Revert(h: Header): (r: Header)
    ensures Displays(r, h.mode)
    ensures r.link.Some? <==> h.link.Some?
    ensures r.toggle.Some? <==> h.toggle.Some?
  {
    SetTopEmail(h, h.mode)
  }

  /** Two clicks, each followed by its revert, bring back the starting
      address and label with the same elements present; a header that
      showed its mode is restored exactly. */
  lemma TwoClicksRestore(h: Header, ok1: bool, ok2: bool)
    requires h.toggle.Some?
    ensures var first := Revert(Click(h, ok1).header);
            var second := Revert(Click(first, ok2).header);
            && Displays(second, h.mode)
            && (second.link.Some? <==> h.link.Some?)
            && second.toggle.Some?
            && (Displays(h, h.mode) ==> second == h)
  {
  }

  /** The address shown determines the mode. */
  lemma AddressDeterminesMode(m1: EmailMode, m2: EmailMode)
    ensures Address(m1) == Address(m2) <==> m1 == m2
  {
  }

  /** Flipping twice is the identity. */
  lemma FlipTwice(mode: EmailMode)
    ensures Flip(Flip(mode)) == mode
  {
  }

  /** A second click before the first revert fires copies the first
      address again; the pending revert then shows the current mode. */
  lemma QuickDoubleClick(h: Header, ok1: bool, ok2: bool)
    requires h.toggle.Some?
    ensures var c1 := Click(h, ok1);
            var c2 := Click(c1.header, ok2);
            c2.copied == Address(h.mode) && Displays(Revert(c2.header), h.mode)
  {
  }
}

=== FILE: html.dfy ===
/** `escapeHtml`: the chain of five `replaceAll` calls that makes record
    text safe to interpolate into markup. */
module Html {
  import opened Wrappers
  import opened Text

  const AmpEntity := "&amp;"
  const LtEntity := "&lt;"
  const GtEntity := "&gt;"
  const QuotEntity := "&quot;"
  const AposEntity := "&#039;"

  /** `s.replaceAll(c, rep)` for a one-character pattern: every occurrence of
      `c`, left to right, is replaced by `rep`. */
  function ReplaceAll(s: string, c: char, rep: string): (r: string)
    ensures c !in rep ==> c !in r
    ensures forall d :: d in r ==> d in s || d in rep
  {
    if s == [] then []
    else (if s[0] == c then rep else [s[0]]) + ReplaceAll(s[1..], c, rep)
  }

  lemma {:induction false} ReplaceAllAppend(a: string, b: string, c: char, rep: string)
    ensures ReplaceAll(a + b, c, rep) == ReplaceAll(a, c, rep) + ReplaceAll(b, c, rep)
    decreases |a|
  {
    if a != [] {
      assert (a + b)[1..] == a[1..] + b;
      ReplaceAllAppend(a[1..], b, c, rep);
    } else {
      assert a + b == b;
    }
  }

  /** The five replacements in the order the source applies them; the
      ampersand goes first so the later entities are not escaped again. */
  function ReplaceChain(s: string): (r: string)
    ensures NoMarkupChars(r)
    ensures forall d :: d in r ==> d in s || d in AmpEntity + LtEntity + GtEntity + QuotEntity + AposEntity
  {
    var s1 := ReplaceAll(s, '&', AmpEntity);
    var s2 := ReplaceAll(s1, '<', LtEntity);
    var s3 := ReplaceAll(s2, '>', GtEntity);
    var s4 := ReplaceAll(s3, '"', QuotEntity);
    ReplaceAll(s4, '\'', AposEntity)
  }

  /** The per-character reading of the escape. */
  function EscapeChar(c: char): string {
    match c
    case '&' => AmpEntity
    case '<' => LtEntity
    case '>' => GtEntity
    case '"' => QuotEntity
    case '\'' => AposEntity
    case _ => [c]
  }

  function EscapeEach(s: string): string {
    if s == [] then [] else EscapeChar(s[0]) + EscapeEach(s[1..])
  }

  /** `escapeHtml(str)`: a missing (or empty) input yields the empty string. */
  function EscapeHtml(str: Option<string>): (r: string)
    ensures str.None? ==> r == ""
    ensures NoMarkupChars(r)
    ensures AmpersandsBeginEntities(r)
    ensures Unescape(r) == str.GetOr("")
  {
    var s := str.GetOr("");
    ChainIsEachChar(s);
    EscapeEachSafe(s);
    UnescapeEscapeEach(s);
    ReplaceChain(s)
  }

  /* ---------------- What the output looks like ---------------- */

  predicate NoMarkupChars(r: string) {
    '<' !in r && '>' !in r && '"' !in r && '\'' !in r
  }

  predicate BeginsEntity(t: string) {
    IsPrefix(AmpEntity, t) || IsPrefix(LtEntity, t) || IsPrefix(GtEntity, t)
    || IsPrefix(QuotEntity, t) || IsPrefix(AposEntity, t)
  }

  /** Every `&` in `r` is the first character of one of the five entities. */
  predicate AmpersandsBeginEntities(r: string) {
    forall i :: 0 <= i < |r| && r[i] == '&' ==> BeginsEntity(r[i..])
  }

  /** Decoding of the five entities, left to right; any other character is kept. */
  function Unescape(t: string): string
    decreases |t|
  {
    if t == [] then []
    else if IsPrefix(AmpEntity, t) then "&" + Unescape(t[|AmpEntity|..])
    else if IsPrefix(LtEntity, t) then "<" + Unescape(t[|LtEntity|..])
    else if IsPrefix(GtEntity, t) then ">" + Unescape(t[|GtEntity|..])
    else if IsPrefix(QuotEntity, t) then "\"" + Unescape(t[|QuotEntity|..])
    else if IsPrefix(AposEntity, t) then "'" + Unescape(t[|AposEntity|..])
    else [t[0]] + Unescape(t[1..])
  }

  /* ---------------- Proofs ---------------- */

  lemma {:induction false} ReplaceAllAbsent(s: string, c: char, rep: string)
    requires c !in s
    ensures ReplaceAll(s, c, rep) == s
    decreases |s|
  {
    if s != [] {
      ReplaceAllAbsent(s[1..], c, rep);
      assert s == [s[0]] + s[1..];
    }
  }

  lemma ReplaceAllSingle(c: char, x: char, rep: string)
    ensures ReplaceAll([c], x, rep) == if c == x then rep else [c]
  {
    assert [c][1..] == [];
    assert ReplaceAll([], x, rep) == [];
  }

  /** The stages after the first leave a string without their characters unchanged. */
  lemma LaterStagesKeep(e: string, from: nat)
    requires 1 <= from <= 5
    requires from <= 1 ==> '<' !in e
    requires from <= 2 ==> '>' !in e
    requires from <= 3 ==> '"' !in e
    requires from <= 4 ==> '\'' !in e
    ensures from <= 1 ==> ReplaceAll(e, '<', LtEntity) == e
    ensures from <= 2 ==> ReplaceAll(e, '>', GtEntity) == e
    ensures from <= 3 ==> ReplaceAll(e, '"', QuotEntity) == e
    ensures from <= 4 ==> ReplaceAll(e, '\'', AposEntity) == e
  {
    if from <= 1 { ReplaceAllAbsent(e, '<', LtEntity); }
    if from <= 2 { ReplaceAllAbsent(e, '>', GtEntity); }
    if from <= 3 { ReplaceAllAbsent(e, '"', QuotEntity); }
    if from <= 4 { ReplaceAllAbsent(e, '\'', AposEntity); }
  }

  lemma ChainAmp(c: char)
    requires c == '&'
    ensures ReplaceChain([c]) == EscapeChar(c)
  {
    ReplaceAllSingle(c, '&', AmpEntity);
    LaterStagesKeep(AmpEntity, 1);
  }

  lemma ChainLt(c: char)
    requires c == '<'
    ensures ReplaceChain([c]) == EscapeChar(c)
  {
    ReplaceAllSingle(c, '&', AmpEntity);
    ReplaceAllSingle(c, '<', LtEntity);
    LaterStagesKeep(LtEntity, 2);
  }

  lemma ChainGt(c: char)
    requires c == '>'
    ensures ReplaceChain([c]) == EscapeChar(c)
  {
    ReplaceAllSingle(c, '&', AmpEntity);
    ReplaceAllSingle(c, '<', LtEntity);
    ReplaceAllSingle(c, '>', GtEntity);
    LaterStagesKeep(GtEntity, 3);
  }

  lemma ChainQuot(c: char)
    requires c == '"'
    ensures ReplaceChain([c]) == EscapeChar(c)
  {
    ReplaceAllSingle(c, '&', AmpEntity);
    ReplaceAllSingle(c, '<', LtEntity);
    ReplaceAllSingle(c, '>', GtEntity);
    ReplaceAllSingle(c, '"', QuotEntity);
    LaterStagesKeep(QuotEntity, 4);
  }

  lemma ChainApos(c: char)
    requires c == '\''
    ensures ReplaceChain([c]) == EscapeChar(c)
  {
    ReplaceAllSingle(c, '&', AmpEntity);
    ReplaceAllSingle(c, '<', LtEntity);
    ReplaceAllSingle(c, '>', GtEntity);
    ReplaceAllSingle(c, '"', QuotEntity);
    ReplaceAllSingle(c, '\'', AposEntity);
  }

  lemma ChainPlain(c: char)
    requires c != '&' && c != '<' && c != '>' && c != '"' && c != '\''
    ensures ReplaceChain([c]) == EscapeChar(c)
  {
    ReplaceAllSingle(c, '&', AmpEntity);
    ReplaceAllSingle(c, '<', LtEntity);
    ReplaceAllSingle(c, '>', GtEntity);
    ReplaceAllSingle(c, '"', QuotEntity);
    ReplaceAllSingle(c, '\'', AposEntity);
  }

  lemma ChainOfChar(c: char)
    ensures ReplaceChain([c]) == EscapeChar(c)
  {
    if c == '&' { ChainAmp(c); }
    else if c == '<' { ChainLt(c); }
    else if c == '>' { ChainGt(c); }
    else if c == '"' { ChainQuot(c); }
    else if c == '\'' { ChainApos(c); }
    else { ChainPlain(c); }
  }

  /** The sequential `replaceAll` chain is the per-character escape. */
  lemma {:induction false} ChainIsEachChar(s: string)
    ensures ReplaceChain(s) == EscapeEach(s)
    decreases |s|
  {
    if s != [] {
      var c, rest := s[0], s[1..];
      assert s == [c] + rest;
      var s1 := ReplaceAll(s, '&', AmpEntity);
      ReplaceAllAppend([c], rest, '&', AmpEntity);
      var a1, b1 := ReplaceAll([c], '&', AmpEntity), ReplaceAll(rest, '&', AmpEntity);
      ReplaceAllAppend(a1, b1, '<', LtEntity);
      var a2, b2 := ReplaceAll(a1, '<', LtEntity), ReplaceAll(b1, '<', LtEntity);
      ReplaceAllAppend(a2, b2, '>', GtEntity);
      var a3, b3 := ReplaceAll(a2, '>', GtEntity), ReplaceAll(b2, '>', GtEntity);
      ReplaceAllAppend(a3, b3, '"', QuotEntity);
      var a4, b4 := ReplaceAll(a3, '"', QuotEntity), ReplaceAll(b3, '"', QuotEntity);
      ReplaceAllAppend(a4, b4, '\'', AposEntity);
      assert ReplaceChain(s) == ReplaceChain([c]) + ReplaceChain(rest);
      ChainOfChar(c);
      ChainIsEachChar(rest);
    }
  }

  lemma EscapeCharShape(c: char)
    ensures NoMarkupChars(EscapeChar(c))
    ensures forall i :: 0 <= i < |EscapeChar(c)| && EscapeChar(c)[i] == '&' ==> i == 0
    ensures EscapeChar(c)[0] == '&' ==> BeginsEntity(EscapeChar(c))
  {
  }

  lemma {:induction false} EscapeEachSafe(s: string)
    ensures NoMarkupChars(EscapeEach(s))
    ensures AmpersandsBeginEntities(EscapeEach(s))
    decreases |s|
  {
    if s != [] {
      EscapeEachSafe(s[1..]);
      var e, rest := EscapeChar(s[0]), EscapeEach(s[1..]);
      var r := e + rest;
      EscapeCharShape(s[0]);
      forall i | 0 <= i < |r| && r[i] == '&'
        ensures BeginsEntity(r[i..])
      {
        if i < |e| {
          assert e[i] == '&';
          assert r[0..] == e + rest;
        } else {
          assert r[i..] == rest[i - |e|..];
          assert rest[i - |e|] == '&';
        }
      }
    }
  }

  lemma UnescapeStep(c: char, t: string)
    ensures Unescape(EscapeChar(c) + t) == [c] + Unescape(t)
  {
    var e := EscapeChar(c);
    var u := e + t;
    assert u[..|e|] == e;
    assert u[|e|..] == t;
    if c != '&' && c != '<' && c != '>' && c != '"' && c != '\'' {
      assert u[0] == c && u[1..] == t;
      assert !IsPrefix(AmpEntity, u) && !IsPrefix(LtEntity, u) && !IsPrefix(GtEntity, u);
      assert !IsPrefix(QuotEntity, u) && !IsPrefix(AposEntity, u);
    } else if c == '<' {
      assert u[1] == 'l';
      assert !IsPrefix(AmpEntity, u);
    } else if c == '>' {
      assert u[1] == 'g';
      assert !IsPrefix(AmpEntity, u) && !IsPrefix(LtEntity, u);
    } else if c == '"' {
      assert u[1] == 'q';
      assert !IsPrefix(AmpEntity, u) && !IsPrefix(LtEntity, u) && !IsPrefix(GtEntity, u);
    } else if c == '\'' {
      assert u[1] == '#';
      assert !IsPrefix(AmpEntity, u) && !IsPrefix(LtEntity, u) && !IsPrefix(GtEntity, u);
      assert !IsPrefix(QuotEntity, u);
    }
  }

  /** Decoding the five entities recovers the input: nothing is lost by escaping. */
  lemma {:induction false} UnescapeEscapeEach(s: string)
    ensures Unescape(EscapeEach(s)) == s
    decreases |s|
  {
    if s != [] {
      UnescapeStep(s[0], EscapeEach(s[1..]));
      UnescapeEscapeEach(s[1..]);
      assert s == [s[0]] + s[1..];
    }
  }
}

=== FILE: icons.dfy ===
/** The tech-stack icon for one slug: two icon CDNs, a built-in OpenAI badge,
    a Devicon class for three slugs, and a placeholder circle. */
module Icons {

  /** What `fetchSvg` produces: the fetch rejected, the response was not ok
      (`null`), or the response body. */
  datatype Fetch = Threw | NotOk | Body(text: string)

  /** A usable icon: a body that is a non-empty string. */
  predicate Usable(f: Fetch) {
    f.Body? && f.text != ""
  }

  /** The markup a tile receives. `Placeholder` is the circle labelled with
      the slug, both as `getIconMarkup`'s last resort and as the fallback
      when it throws. */
  datatype Markup = Svg(text: string) | OpenAiBadge | Devicon(cls: string) | Placeholder(slug: string)

  /** The outcome of `getIconMarkup`: markup, or a rejection. */
  datatype Outcome = Failed | Done(markup: Markup)

  /** `DEVICON_FALLBACK`, as its own keys. */
  const DeviconFallback: map<string, string> :=
    map["css3" := "devicon-css3-plain",
        "microsoftazure" := "devicon-azure-plain",
        "visualstudiocode" := "devicon-vscode-plain"]

  /** The steps after both CDNs came back without an icon. It never yields
      SVG text, and it is a placeholder exactly for a slug with neither the
      badge nor a Devicon class. */
  function LocalIcon(slug: string): (m: Markup)
    ensures slug == "openai" ==> m == OpenAiBadge
    ensures slug != "openai" && slug in DeviconFallback ==> m == Devicon(DeviconFallback[slug])
    ensures slug != "openai" && slug !in DeviconFallback ==> m == Placeholder(slug)
    ensures !m.Svg?
    ensures m.Placeholder? <==> slug != "openai" && slug !in DeviconFallback
  {
    if slug == "openai" then OpenAiBadge
    else if slug in DeviconFallback && DeviconFallback[slug] != "" then Devicon(DeviconFallback[slug])
    else Placeholder(slug)
  }

  /** `getIconMarkup(slug)`. `mirror` is what the second CDN would return;
      it is asked only when the first gave nothing usable. */
  function IconMarkup(slug: string, primary: Fetch, mirror: Fetch): (o: Outcome)
    ensures Usable(primary) ==> o == Done(Svg(primary.text))
    ensures o.Failed? <==> primary.Threw? || (!Usable(primary) && mirror.Threw?)
  {
    if primary.Threw? then Failed
    else if Usable(primary) then Done(Svg(primary.text))
    else if mirror.Threw? then Failed
    else if Usable(mirror) then Done(Svg(mirror.text))
    else Done(LocalIcon(slug))
  }

  /** What `renderTechStack` puts in the tile: a rejection becomes the
      placeholder, so every tile gets an icon. SVG text comes only from a
      usable response, the mirror's only when the primary answered without
      one; anything else is the local icon or the placeholder. */
  function TileIcon(slug: string, primary: Fetch, mirror: Fetch): (m: Markup)
    ensures IconMarkup(slug, primary, mirror).Done? ==> m == IconMarkup(slug, primary, mirror).markup
    ensures IconMarkup(slug, primary, mirror).Failed? ==> m == Placeholder(slug)
    ensures m.Svg? ==> || (Usable(primary) && m.text == primary.text)
                       || (!primary.Threw? && !Usable(primary) && Usable(mirror) && m.text == mirror.text)
    ensures !m.Svg? ==> m == LocalIcon(slug) || m == Placeholder(slug)
  {
    match IconMarkup(slug, primary, mirror)
    case Failed => Placeholder(slug)
    case Done(m) => m
  }

  /** One step of the search: it stops it (a rejected fetch), passes to the
      next step, or gives markup. */
  datatype Step = Stop | Skip | Give(markup: Markup)

  function FetchStep(f: Fetch): Step {
    if f.Threw? then Stop else if Usable(f) then Give(Svg(f.text)) else Skip
  }

  /** Reference definition: the first step that gives markup, unless a step
      before it stops the search. */
  function FirstOf(steps: seq<Step>): Outcome {
    if steps == [] then Failed
    else if steps[0].Stop? then Failed
    else if steps[0].Give? then Done(steps[0].markup)
    else FirstOf(steps[1..])
  }

  /** The precedence list: primary CDN, mirror CDN, then the local icon,
      which always gives something. */
  function Steps(slug: string, primary: Fetch, mirror: Fetch): seq<Step> {
    [FetchStep(primary), FetchStep(mirror), Give(LocalIcon(slug))]
  }

  lemma IconMarkupIsFirstOf(slug: string, primary: Fetch, mirror: Fetch)
    ensures IconMarkup(slug, primary, mirror) == FirstOf(Steps(slug, primary, mirror))
  {
    var s := Steps(slug, primary, mirror);
    assert s[1..] == [FetchStep(mirror), Give(LocalIcon(slug))];
    assert s[1..][1..] == [Give(LocalIcon(slug))];
    assert FirstOf(s[1..][1..]) == Done(LocalIcon(slug));
    assert FirstOf(s[1..]) == IconMarkup(slug, NotOk, mirror);
  }

  /** Once the primary CDN gives an icon, the mirror does not matter. */
  lemma MirrorIrrelevantAfterPrimary(slug: string, primary: Fetch, m1: Fetch, m2: Fetch)
    requires Usable(primary)
    ensures TileIcon(slug, primary, m1) == TileIcon(slug, primary, m2)
  {
  }
}

=== FILE: ordering.dfy ===
/** The `list.sort(...)` step of `filteredProjects`: the comparator, a stable
    insertion sort, and the facts that pin its result down. */
module ProjectOrder {
  import opened Text
  import opened Projects

  function BoolToInt(b: bool): int { if b then 1 else 0 }

  /** The comparator: `(b.featured === true) - (a.featured === true)`, and
      when that is 0, `(b.date || "").localeCompare(a.date || "")`. Negative
      means `a` goes first: a featured record before one that is not, and
      between two of the same standing the later date first; 0 only for
      equal standing and equal dates. */
  function CompareProjects(a: Project, b: Project): (r: int)
    ensures -1 <= r <= 1
    ensures IsFeatured(a) != IsFeatured(b) ==> (r < 0 <==> IsFeatured(a)) && r != 0
    ensures IsFeatured(a) == IsFeatured(b) ==>
              && (r < 0 <==> Less(DateOf(b), DateOf(a)))
              && (r == 0 <==> DateOf(a) == DateOf(b))
  {
    var byFeatured := BoolToInt(IsFeatured(b)) - BoolToInt(IsFeatured(a));
    if byFeatured != 0 then byFeatured else Compare(DateOf(b), DateOf(a))
  }

  /** `a` may stand before `b` in the sorted list. */
  predicate Precedes(a: Project, b: Project) { CompareProjects(a, b) <= 0 }

  predicate Ordered(xs: seq<Project>) {
    forall i, j :: 0 <= i < j < |xs| ==> Precedes(xs[i], xs[j])
  }

  /** The records of `xs` that carry key `k`, in their order in `xs`. */
  function WithKey(xs: seq<Project>, k: SortKey): (r: seq<Project>)
    ensures |r| <= |xs|
  {
    if xs == [] then []
    else (if KeyOf(xs[0]) == k then [xs[0]] else []) + WithKey(xs[1..], k)
  }

  /** Records equal on both keys keep their relative order from `before`. */
  ghost predicate SameKeyRuns(after: seq<Project>, before: seq<Project>) {
    forall k :: WithKey(after, k) == WithKey(before, k)
  }

  /* ---------------- Comparator facts ---------------- */

  lemma CompareZeroIffSameKey(a: Project, b: Project)
    ensures CompareProjects(a, b) == 0 <==> KeyOf(a) == KeyOf(b)
  {
  }

  lemma CompareAntisymmetric(a: Project, b: Project)
    ensures CompareProjects(a, b) == -CompareProjects(b, a)
  {
  }

  lemma PrecedesTransitive(a: Project, b: Project, c: Project)
    requires Precedes(a, b) && Precedes(b, c)
    ensures Precedes(a, c)
  {
    if IsFeatured(a) == IsFeatured(b) && IsFeatured(b) == IsFeatured(c) {
      var da, db, dc := DateOf(a), DateOf(b), DateOf(c);
      if Less(db, da) && Less(dc, db) {
        LessTransitive(dc, db, da);
      }
    }
  }

  lemma PrecedesTotal(a: Project, b: Project)
    ensures Precedes(a, b) || Precedes(b, a)
  {
    CompareAntisymmetric(a, b);
  }

  /** What an ordered list looks like, in terms of the two keys: every
      featured record before every other, and among records with the same
      `featured` value, dates never increase. Both directions hold. */
  lemma OrderedMeans(xs: seq<Project>)
    ensures Ordered(xs) <==>
      (forall i, j :: 0 <= i < j < |xs| && IsFeatured(xs[j]) ==> IsFeatured(xs[i]))
      && (forall i, j :: 0 <= i < j < |xs| && IsFeatured(xs[i]) == IsFeatured(xs[j]) ==>
            !Less(DateOf(xs[i]), DateOf(xs[j])))
  {
    forall a, b ensures Precedes(a, b) <==>
      (IsFeatured(b) ==> IsFeatured(a)) && (IsFeatured(a) == IsFeatured(b) ==> !Less(DateOf(a), DateOf(b)))
    {
      LessAsymmetric(DateOf(a), DateOf(b));
      LessTotal(DateOf(a), DateOf(b));
      LessIrreflexive(DateOf(a));
    }
  }

  /* ---------------- The sort ---------------- */

  lemma OrderedCons(x: Project, ys: seq<Project>)
    requires Ordered(ys)
    requires forall y :: y in ys ==> Precedes(x, y)
    ensures Ordered([x] + ys)
  {
    var r := [x] + ys;
    forall i, j | 0 <= i < j < |r| ensures Precedes(r[i], r[j]) {
      assert r[j] == ys[j - 1];
      if i > 0 { assert r[i] == ys[i - 1]; }
    }
  }

  /** Places `x` before the first record it may precede, so that `x` (which
      came earlier in the input) stays ahead of every record with its key. */
  function Insert(x: Project, ys: seq<Project>): (r: seq<Project>)
    requires Ordered(ys)
    ensures Ordered(r)
    ensures multiset(r) == multiset(ys) + multiset{x}
    ensures forall k :: WithKey(r, k) == (if KeyOf(x) == k then [x] else []) + WithKey(ys, k)
  {
    if ys == [] then
      assert WithKey([x], KeyOf(x)) == [x] + WithKey([], KeyOf(x));
      [x]
    else if Precedes(x, ys[0]) then
      InsertFront(x, ys);
      [x] + ys
    else
      var rest := Insert(x, ys[1..]);
      InsertBehind(x, ys, rest);
      [ys[0]] + rest
  }

  lemma InsertFront(x: Project, ys: seq<Project>)
    requires Ordered(ys) && ys != [] && Precedes(x, ys[0])
    ensures Ordered([x] + ys)
    ensures forall k :: WithKey([x] + ys, k) == (if KeyOf(x) == k then [x] else []) + WithKey(ys, k)
  {
    forall y | y in ys ensures Precedes(x, y) {
      var j :| 0 <= j < |ys| && ys[j] == y;
      if j > 0 { PrecedesTransitive(x, ys[0], y); }
    }
    OrderedCons(x, ys);
    assert ([x] + ys)[1..] == ys;
  }

  lemma InsertBehind(x: Project, ys: seq<Project>, rest: seq<Project>)
    requires Ordered(ys) && ys != [] && !Precedes(x, ys[0])
    requires Ordered(rest)
    requires multiset(rest) == multiset(ys[1..]) + multiset{x}
    requires forall k :: WithKey(rest, k) == (if KeyOf(x) == k then [x] else []) + WithKey(ys[1..], k)
    ensures Ordered([ys[0]] + rest)
    ensures multiset([ys[0]] + rest) == multiset(ys) + multiset{x}
    ensures forall k :: WithKey([ys[0]] + rest, k) == (if KeyOf(x) == k then [x] else []) + WithKey(ys, k)
  {
    assert ys == [ys[0]] + ys[1..];
    InsertBehindOrdered(x, ys, rest);
    InsertBehindRuns(x, ys, rest);
  }

  lemma InsertBehindOrdered(x: Project, ys: seq<Project>, rest: seq<Project>)
    requires Ordered(ys) && ys != [] && !Precedes(x, ys[0])
    requires Ordered(rest)
    requires multiset(rest) == multiset(ys[1..]) + multiset{x}
    ensures Ordered([ys[0]] + rest)
  {
    forall y | y in rest ensures Precedes(ys[0], y) {
      assert y in multiset(rest);
      if y == x {
        CompareAntisymmetric(x, ys[0]);
      } else {
        assert y in multiset(ys[1..]);
        var j :| 0 <= j < |ys[1..]| && ys[1..][j] == y;
        assert ys[j + 1] == y;
      }
    }
    OrderedCons(ys[0], rest);
  }

  lemma InsertBehindRuns(x: Project, ys: seq<Project>, rest: seq<Project>)
    requires ys != [] && !Precedes(x, ys[0])
    requires forall k :: WithKey(rest, k) == (if KeyOf(x) == k then [x] else []) + WithKey(ys[1..], k)
    ensures forall k :: WithKey([ys[0]] + rest, k) == (if KeyOf(x) == k then [x] else []) + WithKey(ys, k)
  {
    var r := [ys[0]] + rest;
    assert r[1..] == rest;
    CompareZeroIffSameKey(x, ys[0]);
    assert KeyOf(x) != KeyOf(ys[0]);
    forall k ensures WithKey(r, k) == (if KeyOf(x) == k then [x] else []) + WithKey(ys, k) {
      InsertBehindKey(x, ys, rest, k);
    }
  }

  /** `InsertBehindRuns` for one key. */
  lemma InsertBehindKey(x: Project, ys: seq<Project>, rest: seq<Project>, k: SortKey)
    requires ys != [] && KeyOf(x) != KeyOf(ys[0])
    requires WithKey(rest, k) == (if KeyOf(x) == k then [x] else []) + WithKey(ys[1..], k)
    ensures WithKey([ys[0]] + rest, k) == (if KeyOf(x) == k then [x] else []) + WithKey(ys, k)
  {
    var r := [ys[0]] + rest;
    assert r[1..] == rest;
    var w := WithKey(ys[1..], k);
    if KeyOf(x) == k {
      assert WithKey(r, k) == WithKey(rest, k);
      assert WithKey(ys, k) == w;
    } else {
      var hy := if KeyOf(ys[0]) == k then [ys[0]] else [];
      assert WithKey(r, k) == hy + WithKey(rest, k);
      assert WithKey(ys, k) == hy + w;
    }
  }

  /** A stable sort by `CompareProjects`: the result is ordered, a
      permutation of the input, and keeps the input order of records that
      are equal on both keys. */
  function SortProjects(xs: seq<Project>): (r: seq<Project>)
    ensures Ordered(r)
    ensures multiset(r) == multiset(xs)
    ensures SameKeyRuns(r, xs)
  {
    if xs == [] then []
    else
      var sortedRest := SortProjects(xs[1..]);
      assert xs == [xs[0]] + xs[1..];
      Insert(xs[0], sortedRest)
  }

  /* ---------------- Any stable sort gives the same list ---------------- */

  lemma SameKeyRunsEmpty(a: seq<Project>, b: seq<Project>)
    requires SameKeyRuns(a, b)
    ensures a == [] <==> b == []
  {
    assert a != [] ==> WithKey(a, KeyOf(a[0])) != [];
    assert b != [] ==> WithKey(b, KeyOf(b[0])) != [];
  }

  lemma {:induction false} InWithKey(xs: seq<Project>, k: SortKey, y: Project)
    requires y in WithKey(xs, k)
    ensures y in xs && KeyOf(y) == k
    decreases |xs|
  {
    if xs != [] && !(KeyOf(xs[0]) == k && y == xs[0]) {
      InWithKey(xs[1..], k, y);
    }
  }

  /** The head of an ordered non-empty list may precede every record with a
      key that occurs in the list. */
  lemma HeadPrecedesKeys(xs: seq<Project>, k: SortKey, y: Project)
    requires Ordered(xs) && xs != []
    requires y in WithKey(xs, k)
    ensures Precedes(xs[0], y)
  {
    InWithKey(xs, k, y);
    CompareZeroIffSameKey(xs[0], y);
  }

  /** There is exactly one ordered arrangement with given runs of equal keys:
      an ECMAScript stable sort with this comparator therefore returns exactly
      `SortProjects`, whatever algorithm it uses. */
  lemma {:induction false} StableOrderUnique(a: seq<Project>, b: seq<Project>)
    requires Ordered(a) && Ordered(b) && SameKeyRuns(a, b)
    ensures a == b
    decreases |a|
  {
    SameKeyRunsEmpty(a, b);
    if a != [] {
      var ka, kb := KeyOf(a[0]), KeyOf(b[0]);
      assert WithKey(a, ka)[0] == a[0];
      assert WithKey(b, kb)[0] == b[0];
      HeadPrecedesKeys(b, ka, WithKey(b, ka)[0]);
      HeadPrecedesKeys(a, kb, WithKey(a, kb)[0]);
      InWithKey(b, ka, WithKey(b, ka)[0]);
      InWithKey(a, kb, WithKey(a, kb)[0]);
      CompareAntisymmetric(a[0], b[0]);
      CompareZeroIffSameKey(a[0], b[0]);
      assert ka == kb;
      assert a[0] == b[0];
      forall k ensures WithKey(a[1..], k) == WithKey(b[1..], k) {
        var head := if ka == k then [a[0]] else [];
        assert WithKey(a, k) == head + WithKey(a[1..], k);
        assert WithKey(b, k) == head + WithKey(b[1..], k);
        assert WithKey(a[1..], k) == WithKey(a, k)[|head|..];
        assert WithKey(b[1..], k) == WithKey(b, k)[|head|..];
      }
      forall i, j | 0 <= i < j < |a| - 1 ensures Precedes(a[1..][i], a[1..][j]) {
        assert a[1..][i] == a[i + 1] && a[1..][j] == a[j + 1];
      }
      forall i, j | 0 <= i < j < |b| - 1 ensures Precedes(b[1..][i], b[1..][j]) {
        assert b[1..][i] == b[i + 1] && b[1..][j] == b[j + 1];
      }
      StableOrderUnique(a[1..], b[1..]);
      assert a == [a[0]] + a[1..] && b == [b[0]] + b[1..];
    }
  }
}

=== FILE: project.dfy ===
/** A record of projects.json and the defaults the page applies to its
    optional fields. */
module Projects {
  import opened Wrappers

  /** One project record. `tags`, `highlights`, `date` and `featured` may be
      missing from the JSON; the URL fields are only used by card rendering
      and are not part of this model. */
  datatype Project = Project(
    name: string,
    description: string,
    tags: Option<seq<string>>,
    highlights: Option<seq<string>>,
    date: Option<string>,
    featured: Option<bool>)

  /** `p.tags || []` */
  function TagsOf(p: Project): seq<string> { p.tags.GetOr([]) }

  /** `p.highlights || []` */
  function HighlightsOf(p: Project): seq<string> { p.highlights.GetOr([]) }

  /** `p.date || ""`: a missing date and an empty one both read as "". */
  function DateOf(p: Project): string { p.date.GetOr("") }

  /** `p.featured === true`: only a literal `true` counts. */
  predicate IsFeatured(p: Project) { p.featured == Some(true) }

  /** The two values the sort looks at. */
  datatype SortKey = SortKey(featured: bool, date: string)

  function KeyOf(p: Project): SortKey { SortKey(IsFeatured(p), DateOf(p)) }
}

=== FILE: rail.dfy ===
/** The career rail's state: which row is highlighted, and the dot frame
    `updateFromScroll` draws. Each rendered row holds one left button, one
    year and one right item, all tagged with the row's index. */
module Rail {
  import opened Wrappers
  import opened Career

  /** The `active` and `dim` classes of one element. */
  datatype Mark = Mark(active: bool, dim: bool)

  /** The classes of the three elements of one row. */
  datatype Row = Row(left: Mark, year: Mark, right: Mark)

  datatype RailState = RailState(current: nat, rows: seq<Row>)

  /** A row as `renderCareer` writes it: all three parts `dim`. */
  const Rendered := Row(Mark(false, true), Mark(false, true), Mark(false, true))

  /** The rail before anything is highlighted: `currentIdx` is 0. */
  function Initial(n: nat): (s: RailState)
    ensures s.current == 0 && |s.rows| == n
    ensures forall i :: 0 <= i < n ==> RowShows(s.rows[i], false)
    ensures ActiveRows(s) == {}
  {
    RailState(0, seq(n, _ => Rendered))
  }

  /** `toggle("active", on)` followed by `toggle("dim", !on)`: the element's
      previous classes do not matter. */
  function Toggle(on: bool): (m: Mark)
    ensures m.active == on && m.dim == !on
    ensures m.active != m.dim
  {
    Mark(on, !on)
  }

  /** Row `i`'s three elements, lit exactly when `i` is the chosen index. */
  predicate RowShows(r: Row, on: bool) {
    r.left == Toggle(on) && r.year == Toggle(on) && r.right == Toggle(on)
  }

  /** Row `k` is lit and every other row is dimmed. */
  predicate Shows(s: RailState, k: nat) {
    forall i :: 0 <= i < |s.rows| ==> RowShows(s.rows[i], i == k)
  }

  /** The indices of the rows whose year is `active`. */
  function ActiveRows(s: RailState): set<nat> {
    set i: nat | i < |s.rows| && s.rows[i].year.active
  }

  /** The outcome of `setActive`: the new rail and whether the dot pulses. */
  datatype Step = Step(rail: RailState, pulse: bool)

  /** `setActive(idx, doPulse)`. */
  function SetActive(s: RailState, idx: nat, doPulse: bool): (r: Step)
    ensures r.rail.current == idx && |r.rail.rows| == |s.rows|
    ensures Shows(r.rail, idx)
    ensures r.pulse == doPulse
  {
    Step(RailState(idx, seq(|s.rows|, i => Row(Toggle(i == idx), Toggle(i == idx), Toggle(i == idx)))), doPulse)
  }

  /** Exactly one row is lit when the index names a row, and none otherwise. */
  lemma ShowsExactlyOne(s: RailState, k: nat)
    requires Shows(s, k)
    ensures k < |s.rows| ==> ActiveRows(s) == {k}
    ensures k >= |s.rows| ==> ActiveRows(s) == {}
  {
    forall i: nat | i < |s.rows|
      ensures s.rows[i].year.active <==> i == k
    {
      assert RowShows(s.rows[i], i == k);
    }
  }

  /** Setting the same row twice leaves the same rail. */
  lemma SetActiveIdempotent(s: RailState, idx: nat, p1: bool, p2: bool)
    ensures SetActive(SetActive(s, idx, p1).rail, idx, p2).rail == SetActive(s, idx, p1).rail
  {
  }

  /* ---------------- updateFromScroll ---------------- */

  /** A `getBoundingClientRect` result, vertical part. */
  datatype Rect = Rect(top: real, height: real)

  /** What `updateFromScroll` measures: the window height, the line wrapper
      (absent when the page has none), the year rows in order and the dot's
      `offsetHeight`. */
  datatype Layout = Layout(innerHeight: real, lineWrap: Option<Rect>, years: seq<Rect>, dotOffsetHeight: nat)

  /** The viewport centre in the wrapper's coordinates. */
  function CentreInWrap(innerHeight: real, wrap: Rect): real {
    innerHeight * 0.5 - wrap.top
  }

  /** Each year row's midpoint in the wrapper's coordinates. */
  function Midpoints(years: seq<Rect>, wrap: Rect): (mids: seq<real>)
    ensures |mids| == |years|
    ensures forall i :: 0 <= i < |years| ==> mids[i] == years[i].top + years[i].height * 0.5 - wrap.top
    ensures forall i :: 0 <= i < |years| && years[i].height >= 0.0 ==>
              years[i].top - wrap.top <= mids[i] <= years[i].top + years[i].height - wrap.top
  {
    seq(|years|, i requires 0 <= i < |years| => years[i].top + years[i].height * 0.5 - wrap.top)
  }

  /** Nothing drawn, or a frame: the rail, the dot offset written to both
      `dot.style.top` and `fill.style.height`, and whether the dot pulses. */
  datatype Frame = Skipped | Drawn(rail: RailState, dotTop: real, fillHeight: real, pulse: bool)

  /** One run of `updateFromScroll`. The year rows measured are the rail's
      rows, so there are as many of them. */
  function UpdateFromScroll(s: RailState, layout: Layout): (f: Frame)
    requires |layout.years| == |s.rows|
    ensures f.Skipped? <==> layout.lineWrap.None? || |s.rows| == 0
    ensures f.Drawn? ==>
              var mids := Midpoints(layout.years, layout.lineWrap.value);
              var centre := CentreInWrap(layout.innerHeight, layout.lineWrap.value);
              var dotH := DotHeight(layout.dotOffsetHeight);
              && IsNearest(mids, centre, f.rail.current)
              && Shows(f.rail, f.rail.current)
              && |f.rail.rows| == |s.rows|
              && f.pulse == (f.rail.current != s.current)
              && f.dotTop == f.fillHeight
              && f.dotTop == DotOffset(mids, centre, layout.dotOffsetHeight, layout.lineWrap.value.height)
              && MinY(dotH) <= f.dotTop <= MaxY(dotH, layout.lineWrap.value.height)
  {
    if layout.lineWrap.None? || |s.rows| == 0 then Skipped
    else
      var wrap := layout.lineWrap.value;
      var mids := Midpoints(layout.years, wrap);
      var centre := CentreInWrap(layout.innerHeight, wrap);
      var dotY := DotOffset(mids, centre, layout.dotOffsetHeight, wrap.height);
      var best := NearestIndex(mids, centre);
      var step := SetActive(s, best, best != s.current);
      Drawn(step.rail, dotY, dotY, step.pulse)
  }

  /** A second run over the same layout changes nothing and does not pulse:
      the dot pulses only when the highlighted row changes. */
  lemma RepeatedUpdateIsQuiet(s: RailState, layout: Layout)
    requires |layout.years| == |s.rows|
    requires UpdateFromScroll(s, layout).Drawn?
    ensures var f1 := UpdateFromScroll(s, layout);
            var f2 := UpdateFromScroll(f1.rail, layout);
            f2.Drawn? && f2.rail == f1.rail && !f2.pulse && f2.dotTop == f1.dotTop
  {
  }

  /** The first step of the start-up frame, `setActive(0, true)`: the first
      row is lit and the dot pulses before anything is measured. */
  lemma StartLightsFirstRow(n: nat)
    ensures var step := SetActive(Initial(n), 0, true);
            step.pulse && Shows(step.rail, 0) && (n > 0 ==> ActiveRows(step.rail) == {0})
  {
    ShowsExactlyOne(SetActive(Initial(n), 0, true).rail, 0);
  }

  /** The rail after the start-up frame and how many times the dot pulsed. */
  datatype Started = Started(rail: RailState, pulses: nat)

  /** The start-up frame: `setActive(0, true)` and then `updateFromScroll()`.
      With nothing to measure the first row stays lit after one pulse;
      otherwise the nearest row is lit, and the dot pulses a second time
      exactly when that row is not the first. */
  function Start(n: nat, layout: Layout): (r: Started)
    requires |layout.years| == n
    ensures layout.lineWrap.None? || n == 0 ==>
              r.rail.current == 0 && Shows(r.rail, 0) && |r.rail.rows| == n && r.pulses == 1
    ensures layout.lineWrap.Some? && n > 0 ==>
              var mids := Midpoints(layout.years, layout.lineWrap.value);
              var centre := CentreInWrap(layout.innerHeight, layout.lineWrap.value);
              && IsNearest(mids, centre, r.rail.current)
              && Shows(r.rail, r.rail.current)
              && ActiveRows(r.rail) == {r.rail.current}
              && r.pulses == (if r.rail.current == 0 then 1 else 2)
  {
    var first := SetActive(Initial(n), 0, true);
    match UpdateFromScroll(first.rail, layout)
    case Skipped => Started(first.rail, 1)
    case Drawn(rail, _, _, pulse) =>
      ShowsExactlyOne(rail, rail.current);
      Started(rail, if pulse then 2 else 1)
  }

  /** Whatever the rail showed before, a drawn frame lights exactly the one
      nearest row. */
  lemma DrawnFrameLightsOneRow(s: RailState, layout: Layout)
    requires |layout.years| == |s.rows|
    requires UpdateFromScroll(s, layout).Drawn?
    ensures var f := UpdateFromScroll(s, layout);
            ActiveRows(f.rail) == {f.rail.current}
  {
    var f := UpdateFromScroll(s, layout);
    ShowsExactlyOne(f.rail, f.rail.current);
  }
}

=== FILE: scenarios.dfy ===
/** Two concrete catalogs worked through the catalog model. */
module CatalogScenarios {
  import opened Wrappers
  import opened Text
  import opened Projects
  import opened ProjectOrder
  import opened Catalog

  /** A query whose first character does not occur in the text cannot match. */
  lemma MissingFirstChar(s: string, q: string)
    ensures |q| > 0 && q[0] !in s ==> !Contains(s, q)
  {
    ContainsIffOccurs(s, q);
    forall i | OccursAt(s, q, i) && |q| > 0 ensures q[0] in s {
      assert s[i] == s[i..i + |q|][0];
    }
  }

  lemma DatesCompare()
    ensures Less("2023-06-01", "2024-01-01")
  {
  }

  /** An unfeatured record goes behind a featured one. */
  lemma SortTwo(second: Project, third: Project)
    requires second.featured == None && third.featured == Some(true)
    ensures SortProjects([second, third]) == [third, second]
  {
    var ps := [second, third];
    assert ps[1..] == [third];
    assert SortProjects([third]) == [third] by {
      assert [third][1..] == [];
    }
    assert !Precedes(second, third);
    assert [third][1..] == [];
    assert Insert(second, [third]) == [third, second];
  }

  /** Of two unfeatured records the newer goes first. */
  lemma InsertNewer(first: Project, second: Project)
    requires first.date == Some("2024-01-01") && first.featured == None
    requires second.date == Some("2023-06-01") && second.featured == None
    ensures Insert(first, [second]) == [first, second]
  {
    DatesCompare();
    assert Precedes(first, second);
  }

  lemma SortThree(first: Project, second: Project, third: Project)
    requires first.date == Some("2024-01-01") && first.featured == None
    requires second.date == Some("2023-06-01") && second.featured == None
    requires third.featured == Some(true)
    ensures SortProjects([first, second, third]) == [third, first, second]
  {
    var ps := [first, second, third];
    assert ps[1..] == [second, third];
    SortTwo(second, third);
    InsertAmongThree(first, second, third);
  }

  lemma InsertAmongThree(first: Project, second: Project, third: Project)
    requires first.date == Some("2024-01-01") && first.featured == None
    requires second.date == Some("2023-06-01") && second.featured == None
    requires third.featured == Some(true)
    ensures Insert(first, [third, second]) == [third, first, second]
  {
    InsertNewer(first, second);
    assert !Precedes(first, third);
    assert [third, second][1..] == [second];
  }

  /** Three records dated 2024-01-01, 2023-06-01 and 2024-06-01, only the
      third featured, are listed third, first, second. */
  lemma FeaturedThenNewest()
    ensures (var first := Project("First", "", None, None, Some("2024-01-01"), None);
             var second := Project("Second", "", None, None, Some("2023-06-01"), None);
             var third := Project("Third", "", None, None, Some("2024-06-01"), Some(true));
             FilteredProjects([first, second, third], AllTag, "") == [third, first, second])
  {
    var first := Project("First", "", None, None, Some("2024-01-01"), None);
    var second := Project("Second", "", None, None, Some("2023-06-01"), None);
    var third := Project("Third", "", None, None, Some("2024-06-01"), Some(true));
    NoFilterShowsAll([first, second, third], "");
    SortThree(first, second, third);
  }

  lemma ReactQuery()
    ensures NormalizeQuery("react") == "react"
  {
    assert TrimStart("react") == "react";
    assert TrimEnd("react") == "react";
  }

  lemma SiteMentionsReact(site: Project)
    requires site == Project("Portfolio", "My site", Some(["React", "Node.js"]), None, None, None)
    ensures Contains(Lower(Haystack(site)), "react")
  {
    assert "React" in TagsOf(site);
    ContainsLower(Haystack(site), "React");
    assert Lower("React") == "react";
  }

  lemma BlogLacksReact(blog: Project)
    requires blog == Project("Blog", "Notes", Some(["Python"]), None, None, None)
    ensures !Contains(Lower(Haystack(blog)), "react")
  {
    var h := Haystack(blog);
    BlogHaystack(blog);
    NoLetterR(h);
    MissingFirstChar(Lower(h), "react");
  }

  lemma BlogHaystack(blog: Project)
    requires blog == Project("Blog", "Notes", Some(["Python"]), None, None, None)
    ensures Haystack(blog) == "Blog Notes Python "
  {
  }

  lemma NoLetterR(h: string)
    requires h == "Blog Notes Python "
    ensures 'r' !in Lower(h)
  {
    var hay := Lower(h);
    assert forall i :: 0 <= i < |hay| ==> hay[i] != 'r';
  }

  lemma KeepFirstOfTwo(a: Project, b: Project, f: Project -> bool)
    requires f(a) && !f(b)
    ensures Filter([a, b], f) == [a]
  {
    assert [a, b][1..] == [b];
    assert [b][1..] == [];
  }

  lemma SearchScenario(site: Project, blog: Project, query: string)
    requires site == Project("Portfolio", "My site", Some(["React", "Node.js"]), None, None, None)
    requires blog == Project("Blog", "Notes", Some(["Python"]), None, None, None)
    requires NormalizeQuery(query) == "react"
    ensures FilteredProjects([site, blog], AllTag, query) == [site]
  {
    SearchSelectsSite(site, blog, query);
    assert SortProjects([site]) == [site];
  }

  lemma SearchSelectsSite(site: Project, blog: Project, query: string)
    requires site == Project("Portfolio", "My site", Some(["React", "Node.js"]), None, None, None)
    requires blog == Project("Blog", "Notes", Some(["Python"]), None, None, None)
    requires NormalizeQuery(query) == "react"
    ensures SelectProjects([site, blog], AllTag, query) == [site]
  {
    SiteMentionsReact(site);
    BlogLacksReact(blog);
    var f := QualifiesTest(AllTag, "react");
    assert f(site) && !f(blog);
    KeepFirstOfTwo(site, blog, f);
  }

  lemma LowerReact(query: string)
    requires query == "REACT"
    ensures Lower(query) == "react"
  {
  }

  /** Searching "REACT" finds the record tagged "React" and not one that
      never mentions it: the upper-case query acts as its lower-case form. */
  lemma UpperCaseQueryFindsReact(site: Project, blog: Project, query: string)
    requires site == Project("Portfolio", "My site", Some(["React", "Node.js"]), None, None, None)
    requires blog == Project("Blog", "Notes", Some(["Python"]), None, None, None)
    requires query == "REACT"
    ensures FilteredProjects([site, blog], AllTag, query) == [site]
  {
    var lowered := Lower(query);
    LowerReact(query);
    SearchIgnoresQueryCase([site, blog], AllTag, query);
    ReactQuery();
    SearchScenario(site, blog, lowered);
  }
}

=== FILE: text.dfy ===
/** String helpers with the meaning the page relies on: ASCII lower-casing
    (standing for `toLowerCase`), `trim`, `Array.prototype.join`,
    `String.prototype.includes`, and the character order used for sorting. */
module Text {

  /* ---------------- Lower-casing ---------------- */

  predicate IsUpper(c: char) { 'A' <= c <= 'Z' }

  function LowerChar(c: char): (r: char)
    ensures !IsUpper(r)
    ensures IsUpper(c) ==> r as int == c as int + 32
    ensures !IsUpper(c) ==> r == c
  {
    if IsUpper(c) then (c as int + 32) as char else c
  }

  /** ASCII lower-casing, character by character. */
  function Lower(s: string): (r: string)
    ensures |r| == |s|
    ensures forall i :: 0 <= i < |r| ==> r[i] == LowerChar(s[i])
  {
    if s == [] then [] else [LowerChar(s[0])] + Lower(s[1..])
  }

  /** Lower-casing keeps white space white space and everything else not. */
  lemma LowerKeepsSpace(c: char)
    ensures IsSpace(LowerChar(c)) <==> IsSpace(c)
  {
  }

  /** Lower-casing twice is lower-casing once. */
  lemma LowerIdempotent(s: string)
    ensures Lower(Lower(s)) == Lower(s)
  {
  }

  /* ---------------- Trimming ---------------- */

  /** The characters `String.prototype.trim` removes: ECMAScript WhiteSpace
      (tab, vertical tab, form feed, space, no-break space, BOM and the
      space separators) and LineTerminator (LF, CR, LS, PS). */
  predicate IsSpace(c: char) {
    || c == '\t' || c == '\n' || c == '\U{000B}' || c == '\U{000C}' || c == '\r' || c == ' '
    || c == '\U{00A0}' || c == '\U{1680}' || ('\U{2000}' <= c <= '\U{200A}')
    || c == '\U{2028}' || c == '\U{2029}' || c == '\U{202F}' || c == '\U{205F}'
    || c == '\U{3000}' || c == '\U{FEFF}'
  }

  predicate AllSpace(s: string) {
    forall k :: 0 <= k < |s| ==> IsSpace(s[k])
  }

  /** Drops the leading white space: the result is a suffix of `s`, what was
      dropped is all white space, and the result does not start with any. */
  function TrimStart(s: string): (r: string)
    ensures |r| <= |s| && r == s[|s| - |r|..]
    ensures AllSpace(s[..|s| - |r|])
    ensures r == [] || !IsSpace(r[0])
  {
    if s != [] && IsSpace(s[0]) then
      var r := TrimStart(s[1..]);
      TrimStartStep(s, r);
      r
    else s
  }

  /** Putting back one leading white-space character keeps `r` a suffix
      preceded by white space only. */
  lemma TrimStartStep(s: string, r: string)
    requires s != [] && IsSpace(s[0])
    requires |r| <= |s| - 1 && r == s[1..][|s| - 1 - |r|..]
    requires AllSpace(s[1..][..|s| - 1 - |r|])
    ensures r == s[|s| - |r|..]
    ensures AllSpace(s[..|s| - |r|])
  {
    var k := |s| - |r|;
    assert s[1..][k - 1..] == s[k..];
    assert s[..k] == [s[0]] + s[1..][..k - 1];
    AllSpaceAppend([s[0]], s[1..][..k - 1]);
  }

  /** Drops the trailing white space: the result is a prefix of `s`, what was
      dropped is all white space, and the result does not end with any. */
  function TrimEnd(s: string): (r: string)
    ensures |r| <= |s| && r == s[..|r|]
    ensures AllSpace(s[|r|..])
    ensures r == [] || !IsSpace(r[|r| - 1])
  {
    if s != [] && IsSpace(s[|s| - 1]) then
      var r := TrimEnd(s[..|s| - 1]);
      assert s[|r|..] == s[..|s| - 1][|r|..] + [s[|s| - 1]];
      AllSpaceAppend(s[..|s| - 1][|r|..], [s[|s| - 1]]);
      r
    else s
  }

  /** `s.trim()`: the slice of `s` left after dropping white space at both
      ends. It is empty exactly when `s` is all white space; otherwise it
      neither starts nor ends with white space. */
  function Trim(s: string): (r: string)
    ensures exists a, b :: 0 <= a <= b <= |s| && r == s[a..b] && AllSpace(s[..a]) && AllSpace(s[b..])
    ensures r == [] <==> AllSpace(s)
    ensures r != [] ==> !IsSpace(r[0]) && !IsSpace(r[|r| - 1])
  {
    var t := TrimStart(s);
    var r := TrimEnd(t);
    TrimmedParts(s, t, r);
    r
  }

  /** What `TrimStart` and then `TrimEnd` promise, put together. */
  lemma TrimmedParts(s: string, t: string, r: string)
    requires |t| <= |s| && t == s[|s| - |t|..] && AllSpace(s[..|s| - |t|])
    requires t == [] || !IsSpace(t[0])
    requires |r| <= |t| && r == t[..|r|] && AllSpace(t[|r|..])
    requires r == [] || !IsSpace(r[|r| - 1])
    ensures exists a, b :: 0 <= a <= b <= |s| && r == s[a..b] && AllSpace(s[..a]) && AllSpace(s[b..])
    ensures r == [] <==> AllSpace(s)
    ensures r != [] ==> !IsSpace(r[0]) && !IsSpace(r[|r| - 1])
  {
    TrimmedSlice(s, t, r);
    if r == [] {
      TrimmedEmpty(s, t, r);
    } else {
      TrimmedNonEmpty(s, t, r);
    }
  }

  /** Trimming both ends leaves the slice `s[a..b]`, with white space on
      either side of it. */
  lemma TrimmedSlice(s: string, t: string, r: string)
    requires |t| <= |s| && t == s[|s| - |t|..] && AllSpace(s[..|s| - |t|])
    requires |r| <= |t| && r == t[..|r|] && AllSpace(t[|r|..])
    ensures exists a, b :: 0 <= a <= b <= |s| && r == s[a..b] && AllSpace(s[..a]) && AllSpace(s[b..])
  {
    var a := |s| - |t|;
    var b := a + |r|;
    assert s[a..b] == t[..|r|];
    assert s[b..] == t[|r|..];
  }

  /** Trimming commutes with lower-casing, which never creates or removes
      white space. */
  lemma {:induction false} TrimStartLower(s: string)
    ensures TrimStart(Lower(s)) == Lower(TrimStart(s))
    decreases |s|
  {
    if s != [] {
      var ls := Lower(s);
      assert ls[0] == LowerChar(s[0]);
      LowerKeepsSpace(s[0]);
      if IsSpace(s[0]) {
        assert ls[1..] == Lower(s[1..]);
        TrimStartLower(s[1..]);
        assert TrimStart(ls) == TrimStart(ls[1..]);
        assert TrimStart(s) == TrimStart(s[1..]);
      } else {
        assert TrimStart(ls) == ls;
        assert TrimStart(s) == s;
      }
    }
  }

  lemma {:induction false} TrimEndLower(s: string)
    ensures TrimEnd(Lower(s)) == Lower(TrimEnd(s))
    decreases |s|
  {
    if s != [] {
      var n := |s| - 1;
      LowerLast(s);
      if IsSpace(s[n]) {
        TrimEndLower(s[..n]);
        TrimEndDrops(s);
        TrimEndDrops(Lower(s));
      } else {
        TrimEndKeeps(s);
        TrimEndKeeps(Lower(s));
      }
    }
  }

  /** Lower-casing keeps the last character's white-space status and
      commutes with dropping it. */
  lemma LowerLast(s: string)
    requires s != []
    ensures IsSpace(Lower(s)[|s| - 1]) <==> IsSpace(s[|s| - 1])
    ensures Lower(s)[..|s| - 1] == Lower(s[..|s| - 1])
  {
    var c := s[|s| - 1];
    assert Lower(s)[|s| - 1] == LowerChar(c);
    LowerKeepsSpace(c);
    LowerPrefix(s, |s| - 1);
  }

  /** Lower-casing commutes with taking a prefix. */
  lemma LowerPrefix(s: string, n: nat)
    requires n <= |s|
    ensures Lower(s)[..n] == Lower(s[..n])
  {
  }

  lemma TrimEndDrops(s: string)
    requires s != [] && IsSpace(s[|s| - 1])
    ensures TrimEnd(s) == TrimEnd(s[..|s| - 1])
  {
  }

  lemma TrimEndKeeps(s: string)
    requires s != [] && !IsSpace(s[|s| - 1])
    ensures TrimEnd(s) == s
  {
  }

  lemma TrimLower(s: string)
    ensures Trim(Lower(s)) == Lower(Trim(s))
  {
    TrimStartLower(s);
    TrimEndLower(TrimStart(s));
  }

  lemma TrimmedEmpty(s: string, t: string, r: string)
    requires |t| <= |s| && t == s[|s| - |t|..] && AllSpace(s[..|s| - |t|])
    requires |r| <= |t| && AllSpace(t[|r|..])
    requires r == []
    ensures AllSpace(s)
  {
    var k := |s| - |t|;
    assert s == s[..k] + t;
    assert t[|r|..] == t;
    AllSpaceAppend(s[..k], t);
  }

  lemma TrimmedNonEmpty(s: string, t: string, r: string)
    requires |t| <= |s| && t == s[|s| - |t|..]
    requires t == [] || !IsSpace(t[0])
    requires |r| <= |t| && r == t[..|r|]
    requires r != []
    ensures !IsSpace(r[0]) && !AllSpace(s)
  {
    var k := |s| - |t|;
    assert r[0] == t[0] == s[k];
  }

  lemma AllSpaceAppend(a: string, b: string)
    requires AllSpace(a) && AllSpace(b)
    ensures AllSpace(a + b)
  {
    forall k | 0 <= k < |a + b|
      ensures IsSpace((a + b)[k])
    {
      if k < |a| { assert (a + b)[k] == a[k]; } else { assert (a + b)[k] == b[k - |a|]; }
    }
  }

  /* ---------------- Joining ---------------- */

  /** `xs.join(sep)`: elements separated by `sep`, no leading or trailing
      separator. Every element, and the separator once there are two, can be
      found in the result. */
  function Join(xs: seq<string>, sep: string): (r: string)
    ensures xs == [] ==> r == []
    ensures |xs| == 1 ==> r == xs[0]
    ensures |xs| >= 1 ==> IsPrefix(xs[0], r)
    ensures forall i :: 0 <= i < |xs| ==> Contains(r, xs[i])
    ensures |xs| >= 2 ==> Contains(r, sep)
    decreases |xs|
  {
    if |xs| == 0 then []
    else if |xs| == 1 then
      assert IsPrefix(xs[0], xs[0]);
      xs[0]
    else
      var rest := Join(xs[1..], sep);
      JoinStep(xs[0], sep, rest, xs[1..]);
      assert xs == [xs[0]] + xs[1..];
      xs[0] + sep + rest
  }

  /** Joining two non-empty lists is joining each and putting one separator
      between them: the items keep their order, with exactly one separator
      between neighbours. */
  lemma {:induction false} JoinAppend(xs: seq<string>, ys: seq<string>, sep: string)
    requires xs != [] && ys != []
    ensures Join(xs + ys, sep) == Join(xs, sep) + sep + Join(ys, sep)
    decreases |xs|
  {
    var zs := xs + ys;
    assert zs[0] == xs[0];
    if |xs| == 1 {
      assert zs[1..] == ys;
    } else {
      assert zs[1..] == xs[1..] + ys;
      JoinAppend(xs[1..], ys, sep);
      assert Join(zs, sep) == xs[0] + sep + (Join(xs[1..], sep) + sep + Join(ys, sep));
    }
  }

  /** `[a, b].join(sep)` is `a`, `sep`, `b`. */
  lemma JoinTwo(a: string, b: string, sep: string)
    ensures Join([a, b], sep) == a + sep + b
  {
    JoinAppend([a], [b], sep);
    assert [a] + [b] == [a, b];
  }

  /** The total length of the items. */
  function TotalLength(xs: seq<string>): nat {
    if xs == [] then 0 else |xs[0]| + TotalLength(xs[1..])
  }

  /** A join is as long as its items plus one separator per neighbouring
      pair, so nothing else is added. */
  lemma {:induction false} JoinLength(xs: seq<string>, sep: string)
    requires xs != []
    ensures |Join(xs, sep)| == TotalLength(xs) + (|xs| - 1) * |sep|
    decreases |xs|
  {
    if |xs| > 1 {
      JoinLength(xs[1..], sep);
      assert |Join(xs, sep)| == |xs[0]| + |sep| + |Join(xs[1..], sep)|;
    }
  }

  /** Putting `x` and `sep` in front of a join keeps everything it contains. */
  lemma JoinStep(x: string, sep: string, rest: string, tail: seq<string>)
    requires forall i :: 0 <= i < |tail| ==> Contains(rest, tail[i])
    ensures IsPrefix(x, x + sep + rest)
    ensures forall i :: 0 <= i < |[x] + tail| ==> Contains(x + sep + rest, ([x] + tail)[i])
    ensures Contains(x + sep + rest, sep)
  {
    var r := x + sep + rest;
    assert r[..|x|] == x;
    assert IsPrefix(x, r);
    PrefixContained(r, x);
    forall i | 0 <= i < |[x] + tail| ensures Contains(r, ([x] + tail)[i]) {
      if i > 0 {
        assert ([x] + tail)[i] == tail[i - 1];
        ContainsWithin(x + sep, rest, [], tail[i - 1]);
        assert x + sep + rest + [] == r;
      }
    }
    assert sep[..|sep|] == sep;
    PrefixContained(sep, sep);
    ContainsWithin(x, sep, rest, sep);
  }

  /* ---------------- Substrings ---------------- */

  predicate IsPrefix(p: string, s: string) {
    |p| <= |s| && s[..|p|] == p
  }

  /** `s.includes(q)`, scanning start positions left to right. The empty
      query is found in every text, and no query longer than the text is. */
  predicate Contains(s: string, q: string)
    ensures q == [] ==> Contains(s, q)
    ensures Contains(s, q) ==> |q| <= |s|
    decreases |s|
  {
    IsPrefix(q, s) || (s != [] && Contains(s[1..], q))
  }

  lemma PrefixContained(s: string, q: string)
    requires IsPrefix(q, s)
    ensures Contains(s, q)
  {
  }

  /** Text found in `s` is found, lower-cased, in the lower-cased `s`. */
  lemma ContainsLower(s: string, q: string)
    requires Contains(s, q)
    ensures Contains(Lower(s), Lower(q))
  {
    ContainsIffOccurs(s, q);
    var i :| OccursAt(s, q, i);
    assert Lower(s)[i..i + |q|] == Lower(q) by {
      assert forall k :: 0 <= k < |q| ==> Lower(s)[i..i + |q|][k] == LowerChar(s[i + k]) == Lower(q)[k];
    }
    OccursContains(Lower(s), Lower(q), i);
  }

  /** Text found in `s` is still found once `s` is surrounded by more text. */
  lemma ContainsWithin(x: string, s: string, y: string, q: string)
    requires Contains(s, q)
    ensures Contains(x + s + y, q)
  {
    ContainsIffOccurs(s, q);
    var i :| OccursAt(s, q, i);
    var t := x + s + y;
    assert t[|x| + i..|x| + i + |q|] == s[i..i + |q|];
    OccursContains(t, q, |x| + i);
  }

  /** A query without a space is found across a single space exactly when
      it is found on one side of it: no occurrence can span the space. */
  lemma ContainsAcrossSpace(a: string, b: string, q: string)
    requires ' ' !in q
    ensures Contains(a + " " + b, q) <==> Contains(a, q) || Contains(b, q)
  {
    var s := a + " " + b;
    ContainsIffOccurs(s, q);
    ContainsIffOccurs(a, q);
    ContainsIffOccurs(b, q);
    if Contains(s, q) {
      var i :| OccursAt(s, q, i);
      assert forall k :: i <= k < i + |q| ==> s[k] == q[k - i];
      assert s[|a|] == ' ';
      assert i + |q| <= |a| || |a| < i;
      if i + |q| <= |a| {
        assert a[i..i + |q|] == s[i..i + |q|];
        assert OccursAt(a, q, i);
      } else {
        var j := i - |a| - 1;
        assert b[j..j + |q|] == s[i..i + |q|];
        assert OccursAt(b, q, j);
      }
    }
    if Contains(a, q) {
      ContainsWithin([], a, " " + b, q);
      assert [] + a + (" " + b) == s;
    }
    if Contains(b, q) {
      ContainsWithin(a + " ", b, [], q);
      assert a + " " + b + [] == s;
    }
  }

  /** A non-empty query without a space is found in a space-joined list
      exactly when it is found in one of the items. */
  lemma {:induction false} ContainsJoin(xs: seq<string>, q: string)
    requires q != [] && ' ' !in q
    ensures Contains(Join(xs, " "), q) <==> exists t :: t in xs && Contains(t, q)
    decreases |xs|
  {
    if |xs| == 1 {
      assert forall t :: t in xs <==> t == xs[0];
    } else if |xs| > 1 {
      ContainsJoin(xs[1..], q);
      ContainsAcrossSpace(xs[0], Join(xs[1..], " "), q);
      assert xs == [xs[0]] + xs[1..];
      assert forall t :: t in xs <==> t == xs[0] || t in xs[1..];
    }
  }

  /** `q` occurs in `s` at position `i`. */
  predicate OccursAt(s: string, q: string, i: int) {
    0 <= i && i + |q| <= |s| && s[i..i + |q|] == q
  }

  /** The scan finds `q` exactly when `q` occurs somewhere in `s`. */
  lemma ContainsIffOccurs(s: string, q: string)
    ensures Contains(s, q) <==> exists i :: OccursAt(s, q, i)
  {
    if Contains(s, q) {
      ContainsWitness(s, q);
    }
    if exists i :: OccursAt(s, q, i) {
      var i :| OccursAt(s, q, i);
      OccursContains(s, q, i);
    }
  }

  lemma {:induction false} ContainsWitness(s: string, q: string)
    requires Contains(s, q)
    ensures exists i :: OccursAt(s, q, i)
    decreases |s|
  {
    if IsPrefix(q, s) {
      assert OccursAt(s, q, 0);
    } else {
      ContainsWitness(s[1..], q);
      var i :| OccursAt(s[1..], q, i);
      assert s[1..][i..i + |q|] == s[i + 1..i + 1 + |q|];
      assert OccursAt(s, q, i + 1);
    }
  }

  lemma {:induction false} OccursContains(s: string, q: string, i: int)
    requires OccursAt(s, q, i)
    ensures Contains(s, q)
    decreases i
  {
    if i == 0 {
      assert IsPrefix(q, s);
    } else {
      assert s[1..][i - 1..i - 1 + |q|] == s[i..i + |q|];
      OccursContains(s[1..], q, i - 1);
    }
  }

  /* ---------------- Ordering ---------------- */

  /** Lexicographic order on characters (Unicode code points), a proper
      prefix sorting first. */
  predicate Less(a: string, b: string)
    decreases |a|
  {
    if a == [] then b != []
    else if b == [] then false
    else if a[0] < b[0] then true
    else if a[0] == b[0] then Less(a[1..], b[1..])
    else false
  }

  lemma {:induction false} LessIrreflexive(a: string)
    ensures !Less(a, a)
    decreases |a|
  {
    if a != [] { LessIrreflexive(a[1..]); }
  }

  lemma {:induction false} LessAsymmetric(a: string, b: string)
    ensures Less(a, b) ==> !Less(b, a)
    decreases |a|
  {
    if a != [] && b != [] && a[0] == b[0] { LessAsymmetric(a[1..], b[1..]); }
  }

  lemma {:induction false} LessTransitive(a: string, b: string, c: string)
    requires Less(a, b) && Less(b, c)
    ensures Less(a, c)
    decreases |a|
  {
    if a != [] && a[0] == b[0] && b[0] == c[0] {
      LessTransitive(a[1..], b[1..], c[1..]);
    }
  }

  lemma {:induction false} LessTotal(a: string, b: string)
    ensures a == b || Less(a, b) || Less(b, a)
    decreases |a|
  {
    if a != [] && b != [] && a[0] == b[0] {
      LessTotal(a[1..], b[1..]);
      if a[1..] == b[1..] {
        assert a == [a[0]] + a[1..] && b == [b[0]] + b[1..];
      }
    }
  }

  /** `a.localeCompare(b)` read as plain code-point comparison: negative,
      zero or positive as `a` sorts before, equal to, or after `b`. */
  function Compare(a: string, b: string): (r: int)
    ensures r == 0 <==> a == b
    ensures r < 0 <==> Less(a, b)
    ensures r > 0 <==> Less(b, a)
    ensures -1 <= r <= 1
  {
    LessIrreflexive(a);
    LessAsymmetric(a, b);
    LessTotal(a, b);
    if a == b then 0 else if Less(a, b) then -1 else 1
  }
}

=== FILE: theme.dfy ===
/** The colour theme: the document's `data-theme` attribute, the `theme`
    entry in local storage, and the glyph on the theme button. */
module Theme {
  import opened Wrappers

  const Light := "light"
  const Dark := "dark"

  /** The button glyph: a sun for the light theme, a moon for anything else. */
  const Sun := "\U{2600}"
  const Moon := "\U{263E}"

  /** `button` is `None` when the page has no theme button. */
  datatype Page = Page(attr: Option<string>, stored: Option<string>, button: Option<string>)

  function Glyph(theme: string): (g: string)
    ensures g == Sun <==> theme == Light
    ensures g == Moon <==> theme != Light
  {
    if theme == Light then Sun else Moon
  }

  /** The glyph tells the light theme from every other, and nothing more:
      two themes get the same glyph exactly when both or neither are light. */
  lemma GlyphTellsLightFromDark(a: string, b: string)
    ensures Glyph(a) == Glyph(b) <==> (a == Light <==> b == Light)
  {
    assert Sun != Moon by { assert Sun[0] != Moon[0]; }
  }

  /** The attribute, the stored value and the glyph all agree on `theme`. */
  predicate Shows(p: Page, theme: string) {
    && p.attr == Some(theme)
    && p.stored == Some(theme)
    && (p.button.Some? ==> p.button.value == Glyph(theme))
  }

  /** `setTheme(next)`: any string is written as given. */
  function SetTheme(p: Page, next: string): (r: Page)
    ensures Shows(r, next)
    ensures r.button.Some? <==> p.button.Some?
  {
    Page(Some(next), Some(next), if p.button.Some? then Some(Glyph(next)) else None)
  }

  /** A saved value counts only when present and non-empty, as `if (saved)`. */
  predicate HasSaved(p: Page) {
    p.stored.Some? && p.stored.value != ""
  }

  /** `initTheme`: the saved theme if any, else the colour-scheme preference.
      `prefersLight` is false when `matchMedia` is unavailable. */
  function InitTheme(p: Page, prefersLight: bool): (r: Page)
    ensures HasSaved(p) ==> Shows(r, p.stored.value)
    ensures !HasSaved(p) && prefersLight ==> Shows(r, Light)
    ensures !HasSaved(p) && !prefersLight ==> Shows(r, Dark)
  {
    if HasSaved(p) then SetTheme(p, p.stored.value)
    else SetTheme(p, if prefersLight then Light else Dark)
  }

  /** The theme the toggle reads: a missing or empty attribute means dark. */
  function Current(p: Page): (t: string)
    ensures t != ""
    ensures p.attr.Some? && p.attr.value != "" ==> t == p.attr.value
    ensures p.attr.None? || p.attr.value == "" ==> t == Dark
  {
    if p.attr.Some? && p.attr.value != "" then p.attr.value else Dark
  }

  /** The theme button's click handler. */
  function Toggle(p: Page): (r: Page)
    ensures Current(p) == Dark ==> Shows(r, Light)
    ensures Current(p) != Dark ==> Shows(r, Dark)
    ensures Current(r) == Light || Current(r) == Dark
  {
    SetTheme(p, if Current(p) == Dark then Light else Dark)
  }

  /** A page without the attribute reads as dark, so a click shows light. */
  lemma MissingThemeTogglesToLight(p: Page)
    requires p.attr.None?
    ensures Shows(Toggle(p), Light)
  {
  }

  /** From light or dark, two clicks return to the same theme. */
  lemma ToggleTwiceRestores(p: Page)
    requires Current(p) == Light || Current(p) == Dark
    ensures Current(Toggle(Toggle(p))) == Current(p)
    ensures Shows(Toggle(Toggle(p)), Current(p))
  {
  }

  /** A click always changes the theme the page shows. */
  lemma ToggleChangesTheme(p: Page)
    ensures Current(Toggle(p)) != Current(p)
  {
  }

  /** An unknown stored theme is applied unchanged by `initTheme`, whatever
      the preference. */
  lemma UnknownThemeSurvivesInit(p: Page, prefersLight: bool)
    requires HasSaved(p) && p.stored.value != Light && p.stored.value != Dark
    ensures Shows(InitTheme(p, prefersLight), p.stored.value)
    ensures Current(InitTheme(p, prefersLight)) !in {Light, Dark}
  {
  }

  /** An unknown stored theme survives `initTheme` but the first click
      turns it dark. */
  lemma UnknownThemeTogglesToDark(p: Page, prefersLight: bool)
    requires HasSaved(p) && p.stored.value != Light && p.stored.value != Dark
    ensures Current(InitTheme(p, prefersLight)) == p.stored.value
    ensures Shows(Toggle(InitTheme(p, prefersLight)), Dark)
  {
  }

  /** A fresh document keeps local storage but not the attribute or the
      button text. */
  function Reload(p: Page, buttonText: Option<string>): (r: Page)
    ensures r.stored == p.stored && r.attr.None?
  {
    Page(None, p.stored, buttonText)
  }

  /** A theme chosen with the toggle is the theme after a reload, whatever
      the preference. */
  lemma ChoiceSurvivesReload(p: Page, buttonText: Option<string>, prefersLight: bool)
    ensures var chosen := Toggle(p);
            Shows(InitTheme(Reload(chosen, buttonText), prefersLight), Current(chosen))
  {
  }
}

=== FILE: wrappers.dfy ===
/** The Option datatype used wherever the page reads a value that may be
    absent: an optional field of a project record, a storage entry, the
    result of an icon fetch. */
module Wrappers {

  datatype Option<+T> = None | Some(value: T) {

    /** The value, or `default` when absent: the model of JavaScript's `x || default`
        for values that are never falsy when present. */
    function GetOr(default: T): T {
      match this
      case Some(v) => v
      case None => default
    }
  }
}
